=== FILE: README.md ===
# wordlewrangler constraint engine in Dafny

A model of the constraint-and-elimination engine of *wordlewrangler*, a Java
solver for the five-letter word game Wordle. The model proves properties of
it. The engine exists in two revisions with different semantics, and each
has its own modules.

**Current revision** (`src/main/java/wordlewrangler`)

- `Words` is the validated five-letter `Word`. It has `contains` and
  `containsAll`, and a `compareTo` that compares the letter strings.
- `WordList` is the `words(...)` pipeline. It splits lines on whitespace,
  drops blank tokens, trims, upper-cases, dedupes, validates and sorts.
- `Letters` holds the `(index, char)` view of a word, `indexOf`, and the
  first-occurrence rule.
- `Constraints` defines `Fixed(c, positions)`, `Present(c, excluded)` and
  `Unused(c)`, together with:
  - their `excludes` tests;
  - the letter-only `compareTo`;
  - `Word.constraintFor`, which derives a constraint for one guess letter
    from a secret.
- `Ranking` is the `WordElim` pair, the descending stable sort by score, and
  the top-score tier (`hottestOf`). Both revisions share it.
- `Games` is the immutable `Game` record. It covers:
  - the `set` and `tryWord`/`apply` transitions;
  - candidate filtering (`viable`/`includes`);
  - `mergeConstraints`, which concatenates and dedupes;
  - `elimination` and `hotCandidates`;
  - `done`.

**Older revision** (`src/wordlewrangler`)

- `LegacyWords` covers `Word.of`, `contains` and `contains(c, excluded)`.
- `LegacyConstraints` has a single-index `Fixed` and the weaker
  `Present.excludes`, which means "absent, or present at some excluded
  position". It also has the per-letter `merge` algebra and `Word.indexOf`.
- `LegacyGames` is the older `Game`. It covers:
  - `mergeConstraints`: group by letter, fold each group with `merge`, sort
    by letter;
  - `findConstraints`, `guessed`, `stillViable` and `tryWord`;
  - `elimination`, `hotCandidates` and `hotCandidate`;
  - `done`.

Modelling choices:

- Java exceptions become `Result` errors: `WordError`, `GameError` and
  `MergeError`.
- Positions that would index outside a word become `WellFormed`
  preconditions.
- The random choice among the top-score tier becomes an explicit `pick`
  index.
- `Wrappers`, `Seqs` and `Sorting` are generic support modules:
  - `Option` and `Result`, with a `map` whose function may fail;
  - `distinct()` and subsequences;
  - a stable insertion sort that stands in for `sorted(...)`.

## Model

| member | source | states |
|---|---|---|
| Words.MakeWord | src/main/java/wordlewrangler/Word.java:46-50 | a word is built exactly when the string has five letters, holds those letters, and otherwise fails with the offending string |
| Words.Contains | src/main/java/wordlewrangler/Word.java:57-59 | `contains(c)` holds iff some position of the word holds `c` |
| Words.AllOccurrencesIn | src/main/java/wordlewrangler/Word.java:61-65 | the suffix scan holds iff every index from `from` on that holds `c` is listed |
| Words.ContainsAll | src/main/java/wordlewrangler/Word.java:61-65 | `containsAll(c, excluded)` holds iff every index holding `c` is listed; it holds vacuously when `c` is absent |
| Words.CompareIsLexicographic | src/main/java/wordlewrangler/Word.java:52-55 | `compareTo` is negative exactly when the first word precedes the second lexicographically (a proper prefix comes first) |
| Words.CompareZeroIffEqual | src/main/java/wordlewrangler/Word.java:52-55 | `compareTo` is zero exactly on equal words |
| Words.CompareAntisymmetric | src/main/java/wordlewrangler/Word.java:52-55 | swapping the arguments negates `compareTo` |
| Words.CompareTransitive | src/main/java/wordlewrangler/Word.java:52-55 | "compares at most zero" is transitive |
| Letters.IndexedChars | src/main/java/wordlewrangler/Word.java:67-70 | `indexedChars` yields exactly the pairs `(i, letters[i])` in increasing `i` |
| Letters.Chars | src/main/java/wordlewrangler/Word.java:88-90 | `chars` keeps the letter of every pair, in order |
| Letters.CharsOfIndexedChars | src/main/java/wordlewrangler/Word.java:88-90 | `chars()` of a word is the word's own letters |
| Letters.IndexOf | src/main/java/wordlewrangler/Word.java:57-59 | `indexOf` is -1 iff the letter is absent; otherwise it is the first index holding the letter |
| Letters.AnyMatch | src/main/java/wordlewrangler/Constraint.java:68-71 | `anyMatch(wordChar == c)` holds iff some element equals `c` |
| WordList.Split | src/main/java/wordlewrangler/Word.java:36 | every piece of `split("\\s+")` that is kept is non-empty and free of `\s`; SplitOfPiece and SplitAtSpace fix which pieces they are |
| WordList.SplitOfPiece | src/main/java/wordlewrangler/Word.java:36 | a non-empty string free of `\s` splits into just itself |
| WordList.SplitAtSpace | src/main/java/wordlewrangler/Word.java:36 | a `\s` character cuts a line: its pieces are those of the text before it followed by those of the text after it, so pieces are maximal `\s`-free runs |
| WordList.SplitKeepsLetters | src/main/java/wordlewrangler/Word.java:36-37 | the pieces, joined, are the line with its `\s` characters removed, so splitting drops nothing else |
| WordList.TrimStart | src/main/java/wordlewrangler/Word.java:39 | the result is a suffix that starts above `' '`, and everything dropped is at most `' '` |
| WordList.TrimEnd | src/main/java/wordlewrangler/Word.java:39 | the result is a prefix that ends above `' '`, and everything dropped is at most `' '` |
| WordList.Trim | src/main/java/wordlewrangler/Word.java:39 | `trim` gives the contiguous part of its input left once every leading and trailing character at most `' '` is dropped: it starts and ends above `' '`, and it keeps a space-free token space-free |
| WordList.ToUpper | src/main/java/wordlewrangler/Word.java:40 | `toUpperCase`, under a default locale that maps `a`-`z` to `A`-`Z`, keeps the length, lowers each lower-case letter's code by 32, and changes nothing else |
| WordList.Tokens | src/main/java/wordlewrangler/Word.java:36-37 | every token of the flattened split is free of `\s`; TokensSplitText says which tokens they are |
| WordList.TokensSplitText | src/main/java/wordlewrangler/Word.java:36-37 | splitting line by line and flattening gives exactly the pieces of the whole text with a line break after each line |
| WordList.TokensKeepLetters | src/main/java/wordlewrangler/Word.java:36-37 | the tokens, joined, are the text without its `\s` characters |
| WordList.Normalize | src/main/java/wordlewrangler/Word.java:38-40 | the filter/trim/upper-case stage never yields more tokens than it is given; NormalizeOne, NormalizeAppend and NormalizeMembers fix its output |
| WordList.NormalizeOne | src/main/java/wordlewrangler/Word.java:38-40 | a blank token yields nothing, any other token yields its trimmed upper-case form |
| WordList.NormalizeAppend | src/main/java/wordlewrangler/Word.java:38-40 | the stages work token by token in order: a concatenation normalizes to the concatenation of the parts' results |
| WordList.NormalizeMembers | src/main/java/wordlewrangler/Word.java:38-40 | a string is output iff it is the trimmed upper-case form of some non-blank token |
| WordList.NormalizeClean | src/main/java/wordlewrangler/Word.java:38-40 | every normalized token is free of lower-case letters, and free of `\s` when the input tokens were |
| WordList.FirstMisfit | src/main/java/wordlewrangler/Word.java:42 | the index of the first token that `new Word` would reject, or the length when none would |
| WordList.NoLaterIsTotalPreorder | src/main/java/wordlewrangler/Word.java:43 | `compareTo(a, b) <= 0` is a total preorder, as `sorted()` needs |
| WordList.SortWords | src/main/java/wordlewrangler/Word.java:41-43 | sorting duplicate-free words keeps exactly the same words, in strictly ascending `compareTo` order |
| WordList.Parse | src/main/java/wordlewrangler/Word.java:34-44 | `words(lines)` fails iff some normalized token is not five letters, and reports such a token. Otherwise it yields every normalized token exactly once, strictly ascending, upper-case and space-free |
| Constraints.Compare | src/main/java/wordlewrangler/Constraint.java:9-12 | `compareTo` is zero, negative or positive as the letters are equal, ascending or descending |
| Constraints.CompareIgnoresKind | src/main/java/wordlewrangler/Constraint.java:9-12 | distinct constraints of different kinds on one letter compare equal |
| Constraints.AnyMismatch | src/main/java/wordlewrangler/Constraint.java:30-35 | the `anyMatch` of `Fixed` holds iff some listed position holds another letter |
| Constraints.ExcludesMeaning | src/main/java/wordlewrangler/Constraint.java:30-71 | `Fixed` excludes iff some listed position lacks its letter. `Present` excludes iff every occurrence of its letter is at an excluded position, including no occurrence. `Unused` excludes iff the word has the letter |
| Constraints.PresentLastTestRedundant | src/main/java/wordlewrangler/Constraint.java:49-58 | the closing `noneMatch` test implies the opening `!contains` one, so `Present.excludes` is just `!contains || containsAll` |
| Constraints.ScanFrom | src/main/java/wordlewrangler/Word.java:76-86 | the scan from an index derives a constraint on the queried letter |
| Constraints.ScanFromMeaning | src/main/java/wordlewrangler/Word.java:76-86 | the scan from an index gives `Fixed` iff the first occurrence is at the queried index. It gives `Present` iff the letter occurs from there on but not first at the queried index, and `Unused` iff the letter never occurs from there on |
| Constraints.ConstraintFor | src/main/java/wordlewrangler/Word.java:76-86 | `constraintFor` carries the queried letter |
| Constraints.ConstraintForMeaning | src/main/java/wordlewrangler/Word.java:76-86 | the first-occurrence rule: `Fixed(c,[i])` iff `c` first occurs at `i`, `Present(c,[i])` iff `c` occurs but first elsewhere, `Unused(c)` iff `c` is absent, and nothing else |
| Constraints.DerivedNeverExcludesSecret | src/main/java/wordlewrangler/Word.java:76-86 | a constraint derived from a secret is well formed and never excludes that secret |
| Ranking.MoreEliminatingIsTotalPreorder | src/main/java/wordlewrangler/Game.java:150-151 | ordering by descending score is a total preorder |
| Ranking.Rank | src/main/java/wordlewrangler/Game.java:125 | `sorted(BY_ELIMINATION.reversed())` is a permutation of its input with non-increasing scores |
| Ranking.RankIsStable | src/main/java/wordlewrangler/Game.java:125 | the sort is stable: the entries of any one score keep their input order |
| Ranking.MaxElimination | src/main/java/wordlewrangler/Game.java:186-191 | `maxEliminations` is 0 on empty input, otherwise it bounds every score and is attained |
| Ranking.Hottest | src/main/java/wordlewrangler/Game.java:153-158 | `hottestOf` keeps, in order, exactly the entries whose score is the maximum, each with as many copies as the input has, and none of any other entry. It is empty only on empty input |
| Ranking.WithScoreCounts | src/main/java/wordlewrangler/Game.java:155-157 | filtering by one score keeps every copy of an entry with that score and no copy of any other |
| Ranking.TopOfPermutation | src/main/java/wordlewrangler/Game.java:186-191 | an entry that no entry outscores keeps, in any reordering, the maximum score that `maxEliminations` computes |
| Games.NewGame | src/main/java/wordlewrangler/Game.java:21-27 | a new game has no solution, the given candidates, and no constraints or guesses |
| Games.Set | src/main/java/wordlewrangler/Game.java:39-47 | `set` fails with `IllegalState` once guesses exist (checked first). It fails with `IllegalArgument` for a non-candidate. Otherwise it succeeds, and changes only the solution |
| Games.IncludesMeaning | src/main/java/wordlewrangler/Game.java:193-197 | `includes` holds iff no constraint excludes the word |
| Games.IncludesAppend | src/main/java/wordlewrangler/Game.java:193-197 | a concatenation of constraint lists includes a word iff both lists do |
| Games.Viable | src/main/java/wordlewrangler/Game.java:175-180 | `viable` keeps a subsequence of the candidates, so never more of them |
| Games.ViableMeaning | src/main/java/wordlewrangler/Game.java:175-180 | a word survives `viable` iff it is a candidate and the constraints include it |
| Games.ViableSnoc | src/main/java/wordlewrangler/Game.java:175-180 | filtering preserves order: a trailing candidate is kept at the end exactly when included |
| Games.ViableInStages | src/main/java/wordlewrangler/Game.java:175-180 | filtering by `a + b` is filtering by `a` and then by `b` |
| Games.MergeConstraints | src/main/java/wordlewrangler/Game.java:203-209 | merging well-formed lists gives a well-formed list |
| Games.MergeMembers | src/main/java/wordlewrangler/Game.java:203-209 | the merged list is duplicate-free, contains every input constraint, and contains nothing else; Seqs.DistinctSnoc fixes which copy is kept and where |
| Seqs.DistinctSnoc | src/main/java/wordlewrangler/Game.java:203-209 | `distinct()` keeps a further element, last, exactly when it was not seen before, so the first occurrence of each element survives in encounter order |
| Games.MergeWithItself | src/main/java/wordlewrangler/Game.java:203-209 | merging a list with itself gives its dedup |
| Games.IncludesMerged | src/main/java/wordlewrangler/Game.java:203-209 | the merged list includes a word iff both inputs do |
| Games.ConstraintsAgainst | src/main/java/wordlewrangler/Game.java:169-173 | one well-formed constraint per guess position: entry `i` is `assumed.constraintFor((i, guess[i]))` |
| Games.OwnConstraintsIncludeSecret | src/main/java/wordlewrangler/Game.java:169-173 | the constraints derived against a word never exclude that word |
| Games.Apply | src/main/java/wordlewrangler/Game.java:129-133 | `apply` keeps the solution, appends the guess, and stores the merged constraints. Its candidates are exactly `viable` of the old candidates under the merged list, which Games.ViableSnoc fixes copy by copy, in order |
| Games.ApplyMeaning | src/main/java/wordlewrangler/Game.java:129-133 | after `apply` a word is a candidate iff it was one and both the old and the new constraints include it |
| Games.TryWord | src/main/java/wordlewrangler/Game.java:57-63 | `tryWord` fails with `IllegalState` iff there is no solution. Otherwise it keeps the solution, appends the guess and never adds candidates |
| Games.TryWordKeepsSolution | src/main/java/wordlewrangler/Game.java:57-63 | in a consistent game (a candidate solution that the constraints include) `tryWord` succeeds and stays consistent |
| Games.SetStartsConsistent | src/main/java/wordlewrangler/Game.java:39-47 | `set` on a fresh game with a candidate solution gives a consistent game |
| Games.Play | src/main/java/wordlewrangler/Game.java:57-63 | repeated `tryWord` keeps the constraints well formed |
| Games.PlayRecordsGuesses | src/main/java/wordlewrangler/Game.java:143-146 | repeated `tryWord` appends exactly the guesses made, in order |
| Games.PlayNarrows | src/main/java/wordlewrangler/Game.java:175-180 | repeated `tryWord` never increases the candidate count |
| Games.PlayKeepsSolution | src/main/java/wordlewrangler/Game.java:57-63 | once `set`, the solution survives every sequence of guesses and remains a candidate |
| Games.Elimination | src/main/java/wordlewrangler/Game.java:135-141 | `elimination` scores the guess between 0 and the candidate count |
| Games.EliminationPredictsTryWord | src/main/java/wordlewrangler/Game.java:135-141 | the score against the real solution is the number of candidates `tryWord` with that guess removes |
| Games.Eliminations | src/main/java/wordlewrangler/Game.java:121-124 | one bounded score per guess, in order |
| Games.HotCandidates | src/main/java/wordlewrangler/Game.java:121-127 | `hotCandidates(assumed)` has one entry per candidate, is a permutation of the scores, and lists them highest first |
| Games.HotCandidatesMembers | src/main/java/wordlewrangler/Game.java:121-127 | every ranked entry is a candidate with a score in range |
| Games.HotCandidatesStable | src/main/java/wordlewrangler/Game.java:121-127 | candidates with equal scores keep candidate order |
| Games.HottestCandidates | src/main/java/wordlewrangler/Game.java:82-84 | `hottestCandidates()` is a subsequence of the ranking that scores no less than any ranked entry. It keeps every top-scoring entry with all of its copies (ties are not collapsed), holds nothing else, and is empty iff there are no candidates |
| Games.OwnGuessPinsWord | src/main/java/wordlewrangler/Word.java:76-86 | against a word with distinct letters, guessing that word earns constraints that include that word alone |
| Games.ViableCountMonotone | src/main/java/wordlewrangler/Game.java:175-180 | constraints that include no word the others exclude keep no more candidates |
| Games.OwnGuessEliminatesMost | src/main/java/wordlewrangler/Game.java:135-141 | were a word with distinct letters the solution, no guess would score higher than that word itself |
| Games.SolutionIsHottest | src/main/java/wordlewrangler/Game.java:82-84 | a candidate solution with distinct letters has its entry in the top tier of `hottestCandidates()` |
| Games.DoneWhenSolved | src/main/java/wordlewrangler/Game.java:86-89 | in a consistent game `done` holds iff the last guess is the solution, and guessing the solution finishes the game |
| LegacyWords.Of | src/wordlewrangler/Word.java:33-38 | `Word.of` succeeds exactly on five-letter strings and otherwise fails with the offending string |
| LegacyWords.Contains | src/wordlewrangler/Word.java:49-56 | `contains(c)` holds iff some letter equals `c` |
| LegacyWords.ContainsAt | src/wordlewrangler/Word.java:58-65 | `contains(c, excluded)` holds iff some listed position holds `c` |
| LegacyConstraints.ExcludesMeaning | src/wordlewrangler/Constraint.java:28-97 | `Fixed(c,i)` excludes iff `w[i] != c`. `Present` excludes iff the letter is absent or some excluded position holds it. `Unused` excludes iff the word has the letter |
| LegacyConstraints.PresentLastTestRedundant | src/wordlewrangler/Constraint.java:45-54 | the closing `noneMatch` test never decides `Present.excludes` |
| LegacyConstraints.IntLeIsTotalPreorder | src/wordlewrangler/Constraint.java:74 | the integer order used by `sorted()` is a total preorder |
| LegacyConstraints.UnionPositionsMeaning | src/wordlewrangler/Constraint.java:68-76 | the merged positions are strictly ascending and are exactly those of either list |
| LegacyConstraints.Merge | src/wordlewrangler/Constraint.java:23-92 | `Fixed`/`Unused` return themselves. `Present` yields to a `Fixed` and pools with a `Present` under its own letter. Merging a `Present` with an `Unused` fails with that `Unused`, and this is the only failure |
| LegacyConstraints.MergePresentUnion | src/wordlewrangler/Constraint.java:56-76 | two `Present`s merge into one whose positions are strictly ascending and are the union |
| LegacyConstraints.MergeWithItself | src/wordlewrangler/Constraint.java:56-76 | a `Present` with sorted distinct positions merges with itself into itself |
| LegacyConstraints.Derive | src/wordlewrangler/Word.java:76-86 | `indexOf` follows the first-occurrence rule: `Fixed` iff the first occurrence is at the index, `Present(c,[i])` iff the letter occurs first elsewhere, `Unused` iff it is absent |
| LegacyConstraints.DerivedAgrees | src/wordlewrangler/Word.java:76-86 | a derived fact is well formed, and it is `Unused` exactly when the secret lacks the letter |
| LegacyConstraints.MergeAgrees | src/wordlewrangler/Constraint.java:56-66 | two facts on one letter that agree with a secret merge without failing into a fact that still agrees |
| LegacyConstraints.DerivedExcludesSecret | src/wordlewrangler/Constraint.java:45-54 | a derived fact excludes its own secret iff the guess letter sits where the secret has it but the secret has it earlier too |
| LegacyConstraints.SecretExcludedExample | src/wordlewrangler/Constraint.java:45-54 | against secret ABACK, letter A at index 2 gives `Present('A',[2])`, which excludes ABACK |
| LegacyGames.CharLeIsTotalPreorder | src/wordlewrangler/Constraint.java:10-13 | the letter order of `compareTo` is a total preorder |
| LegacyGames.KeysMeaning | src/wordlewrangler/Game.java:102-116 | the grouped letters are strictly ascending and are exactly the letters constrained |
| LegacyGames.GroupMembers | src/wordlewrangler/Game.java:104 | a letter's group holds exactly the input constraints on that letter |
| LegacyGames.ReduceFromSettled | src/wordlewrangler/Game.java:109-110 | once the fold holds a `Fixed` or `Unused`, it keeps it to the end |
| LegacyGames.ReduceFromPresents | src/wordlewrangler/Game.java:109-110 | folding only `Present`s gives a `Present` on the same letter, with the union of positions, strictly ascending |
| LegacyGames.ReduceFromFirstOther | src/wordlewrangler/Game.java:109-110 | after a run of `Present`s, the first `Fixed` becomes the result, and the first `Unused` makes the fold fail with it |
| LegacyGames.ReduceAllPresent | src/wordlewrangler/Game.java:109-110 | a group of `Present`s only folds into one `Present` on the group's letter, holding every position of the group, strictly ascending when two or more merged |
| LegacyGames.ReduceFirstOther | src/wordlewrangler/Game.java:109-110 | a group headed by `Present`s and then a `Fixed` folds into that `Fixed`; with an `Unused` there instead, the fold fails with it |
| LegacyGames.ReduceCases | src/wordlewrangler/Game.java:109-110 | a group's fold is its head when that is not `Present`, the union `Present` when all are `Present`, and otherwise decided by the first non-`Present` |
| LegacyGames.MergeKeys | src/wordlewrangler/Game.java:107-115 | one merged constraint per key on success |
| LegacyGames.MergeKeysMeaning | src/wordlewrangler/Game.java:102-116 | the merge succeeds iff every group's fold does, and then holds the folds in key order |
| LegacyGames.MergeConstraints | src/wordlewrangler/Game.java:97-116 | on success, one constraint per distinct letter |
| LegacyGames.MergeConstraintsMeaning | src/wordlewrangler/Game.java:97-116 | `mergeConstraints` succeeds iff every letter's group folds, and its result is the folds in ascending letter order |
| LegacyGames.MergeConstraintsShape | src/wordlewrangler/Game.java:97-116 | the result's letters are exactly the distinct input letters, strictly ascending, and well-formed inputs give well-formed outputs |
| LegacyGames.MergeConstraintsWellFormed | src/wordlewrangler/Game.java:97-116 | merging well-formed constraints gives well-formed ones |
| LegacyGames.MergeConstraintsAgree | src/wordlewrangler/Game.java:97-116 | constraints that agree with one secret always merge, and the merge still agrees |
| LegacyGames.MergeKeepsSingleFact | src/wordlewrangler/Game.java:97-116 | a letter that occurs once in the guess keeps its derived fact unchanged through the merge |
| LegacyGames.FindConstraints | src/wordlewrangler/Game.java:118-122 | one well-formed fact per guess position, on that letter, agreeing with the secret |
| LegacyGames.FindConstraintsAt | src/wordlewrangler/Game.java:118-122 | position `i`'s fact is `indexOf` of `(i, guess[i])` |
| LegacyGames.Admits | src/wordlewrangler/Game.java:86-87 | a word is admitted iff no constraint excludes it |
| LegacyGames.StillViable | src/wordlewrangler/Game.java:83-89 | `stillViable` keeps a subsequence of the candidates; LegacyGames.StillViableSnoc fixes it copy by copy |
| LegacyGames.StillViableSnoc | src/wordlewrangler/Game.java:83-89 | the filter's step: a trailing candidate is kept, at the end, exactly when the constraints admit it |
| LegacyGames.StillViableMeaning | src/wordlewrangler/Game.java:83-89 | a word survives iff it is a candidate and admitted |
| LegacyGames.Guessed | src/wordlewrangler/Game.java:65-74 | `guessed` keeps the secret, stores the new constraints, appends the guess, and its candidates are exactly `stillViable` of the old ones under the new constraints |
| LegacyGames.TryWord | src/wordlewrangler/Game.java:26-28 | on success `tryWord` keeps the secret, appends the guess, keeps constraints well formed and never adds candidates |
| LegacyGames.TryWordKeepsValid | src/wordlewrangler/Game.java:26-28 | from well-formed constraints that agree with the secret, `tryWord` never fails and keeps that property |
| LegacyGames.ConstraintsGivenWellFormed | src/wordlewrangler/Game.java:76-81 | when the known and the guess's constraints merge, the result mentions only word positions |
| LegacyGames.TryWordMeaning | src/wordlewrangler/Game.java:76-81 | the new constraints are `constraintsGiven`, and the new candidates are exactly `stillViable` of the old ones under them, so a word is one iff it was one and those admit it |
| LegacyGames.TryWordCanLoseSecret | src/wordlewrangler/Game.java:26-28 | a guess whose letter matches the secret at a later occurrence, and nowhere else in the guess, removes the secret from the candidates of a fresh game (one with no constraints yet) |
| LegacyGames.TryWordLosesLoneSecret | src/wordlewrangler/Game.java:26-28 | with the secret as the only candidate, such a guess leaves no candidates at all |
| LegacyGames.LosesSecretExample | src/wordlewrangler/Game.java:26-28 | secret ABACK with candidates [ABACK], guess XXAXX leaves no candidates |
| LegacyGames.Elimination | src/wordlewrangler/Game.java:60-63 | the score lies between 0 and the candidate count |
| LegacyGames.EliminationCountsRemaining | src/wordlewrangler/Game.java:60-63 | `elimination` succeeds iff `tryWord` does, and its score is the number of candidates `tryWord` would leave |
| Wrappers.MapResultMeaning | src/wordlewrangler/Game.java:44-46 | a throwing `map` that succeeds has, at index `i`, the function's value on element `i` |
| Wrappers.MapResultSucceeds | src/wordlewrangler/Game.java:44-46 | a throwing `map` succeeds when the function succeeds on every element |
| LegacyGames.Eliminations | src/wordlewrangler/Game.java:44-46 | on success, one score per word |
| LegacyGames.EliminationsMeaning | src/wordlewrangler/Game.java:44-46 | on success, entry `i` is the `elimination` of word `i` |
| LegacyGames.EliminationsSucceed | src/wordlewrangler/Game.java:44-46 | in a valid game every score can be computed |
| LegacyGames.HotCandidates | src/wordlewrangler/Game.java:44-50 | one entry per candidate, a permutation of the candidates' scores, highest score first |
| LegacyGames.HotCandidatesStable | src/wordlewrangler/Game.java:44-50 | entries with equal scores keep candidate order |
| LegacyGames.HotCandidate | src/wordlewrangler/Game.java:30-42 | `hotCandidate` is empty iff there are no candidates |
| LegacyGames.HotCandidateIsHottest | src/wordlewrangler/Game.java:30-42 | the chosen entry is a ranked entry and no entry scores higher |
| LegacyGames.HotCandidateSucceeds | src/wordlewrangler/Game.java:30-42 | in a valid game `hotCandidate` always answers |
| LegacyGames.DoneWhenSolved | src/wordlewrangler/Game.java:52-54 | in a valid game guessing the secret succeeds and makes `done` true |

## Left out

- File and console I/O are not modelled: `Word.fromFile`, `Word.list`, `Clean` and both `Main` drivers. All `toString` renderings are left out, since they are presentation only.
- `Word.words(String)` (src/main/java/wordlewrangler/Word.java:28-32) is not modelled separately. It feeds the pieces of one string through the same pipeline as `WordList.Parse`.
- The older `Word.list` pipeline (src/wordlewrangler/Word.java:16-24) is covered only through `WordList.Parse`. It differs only in using `Word.of`.
- Randomness is not modelled: `RND`, `randomElement`, `guessWord`, `random()`, `someHotCandidate` and the older `Game(List)` constructor. `LegacyGames.HotCandidate` takes the choice as an explicit `pick` index.
- `averageHotCandidates`, `merged` and `average` (src/main/java/wordlewrangler/Game.java:99-119, 160-167) are left out. They rely on `WordElim.add` and `avg`, which `WordElim.java` does not define.
- Games.HottestCandidates: requires a known solution, because the unknown-solution branch of `hotCandidates()` goes through `averageHotCandidates`.
- `Game.tried` and `Constraint.parse` are left out, because `parse` is not defined in any of the source files.
- `Game(String)`, `set(String)` and `tryWord(String)` are left out. They only build a `Word` and call the overloads that are modelled.
- `lastGuess()` is left out: it only reads the last guess.
- WordList.Parse: requires ASCII input. Unicode `toUpperCase` and the full regex `\s` class are not modelled.
- WordList.ToUpper: assumes a default locale that maps `a`-`z` to `A`-`Z`. `toUpperCase()` with no argument follows the default locale, and a Turkish one maps `i` to U+0130, which the model does not follow.
- Games.SolutionIsHottest: requires a solution with distinct letters. At a repeated letter, guessing the solution earns a `Present`, which does not pin that position, so other words can survive the guess. For such a solution the model does not promise the top tier.
- Games.Includes, LegacyConstraints.Excludes: require positions inside the word (`WellFormed`). The Java code would throw `IndexOutOfBoundsException` on other positions, and no derived constraint has them.
- The older `Word(String)`/`Word(char[])` constructor performs no length check. The model's `Word` always has five letters, because every word the game sees comes through `Word.of`.
- The older `Word` wraps a `char[]`, so Java record equality (used by `done()`) is array identity. The model uses value equality.
- LegacyGames.MergeConstraints: when several letter groups fail, the reported `MergeError` may differ from Java's. Java folds the groups in `HashMap` order, while the model folds them in ascending letter order. Results are the same whenever the merge succeeds.
- The older revision's `Word.compareTo` and `Constraint.compareTo` are identical to the current ones. `Words.Compare` and `CharLe` model them once.
- Java `char` is a UTF-16 code unit; Dafny's `char` stands in for it.

## Findings

| source | as written | input that shows it | evidently intended | confidence | as-written member | corrected member |
|---|---|---|---|---|---|---|
| src/wordlewrangler/Constraint.java:45-54 | `Present.excludes` rejects a word that has the letter at any excluded position. `Word.indexOf` gives `Present(c, i)` whenever the first occurrence of `c` is not at `i`, even if the secret also has `c` at `i`. So the secret can rule itself out | secret ABACK, candidates [ABACK], guess XXAXX: the derived fact `Present('A',[2])` excludes ABACK, and no candidates remain | constraints derived against the secret never exclude it. The current revision gets this by making `Present.excludes` mean "every occurrence is at an excluded position" | high, not executed | LegacyGames.LosesSecretExample | Constraints.DerivedNeverExcludesSecret |
| src/wordlewrangler/Game.java:60-63 | `elimination` stores the number of candidates still viable as the score. `hotCandidates` ranks by it in descending order, so `hotCandidate` prefers the guess that leaves the most candidates | secret CRANE, candidates [CRANE, CRATE, FUZZY]: FUZZY scores 2, while CRANE and CRATE score 1, so FUZZY is picked | the score is the number of candidates removed (`candidates.size() - remaining`), as in the current revision | medium, not executed | LegacyGames.EliminationCountsRemaining | Games.EliminationPredictsTryWord |

=== FILE: constraints.dfy ===
/** The current revision's `Constraint`: a closed sum of per-letter feedback
    facts, each able to say whether it rules a word out, plus the derivation
    of a fact from a secret word (`Word.constraintFor`). */
module Constraints {
  import opened Words
  import Letters

  /** `Fixed(c, positions)`: `c` stands at every listed position.
      `Present(c, excluded)`: `c` occurs, but not only at the listed positions.
      `Unused(c)`: `c` does not occur. */
  datatype Constraint =
    | Fixed(c: char, positions: seq<int>)
    | Present(c: char, excluded: seq<int>)
    | Unused(c: char)

  /** The positions of a `Fixed` index into a word; `charAt` throws otherwise. */
  predicate WellFormed(k: Constraint)
  {
    k.Fixed? ==> forall i :: 0 <= i < |k.positions| ==> 0 <= k.positions[i] < SIZE
  }

  predicate AllWellFormed(ks: seq<Constraint>)
  {
    forall i :: 0 <= i < |ks| ==> WellFormed(ks[i])
  }

  /** `compareTo`: `Character.compare` of the letters, so the kind and the
      positions play no part in the ordering. */
  function Compare(a: Constraint, b: Constraint): (r: int)
    ensures r == 0 <==> a.c == b.c
    ensures r < 0 <==> a.c < b.c
    ensures r > 0 <==> b.c < a.c
  {
    a.c as int - b.c as int
  }

  /** Two different constraints on one letter are equal for `compareTo`. */
  lemma CompareIgnoresKind(c: char, p: int)
    ensures Fixed(c, [p]) != Present(c, [p]) && Compare(Fixed(c, [p]), Present(c, [p])) == 0
    ensures Present(c, [p]) != Unused(c) && Compare(Present(c, [p]), Unused(c)) == 0
  {
  }

  /** `anyMatch(position -> word.charAt(position) != c)` over `positions[from..]`. */
  function AnyMismatch(w: Word, c: char, positions: seq<int>, from: nat): (r: bool)
    requires from <= |positions|
    requires forall i :: 0 <= i < |positions| ==> 0 <= positions[i] < SIZE
    ensures r <==> exists i :: from <= i < |positions| && w[positions[i]] != c
    decreases |positions| - from
  {
    if from == |positions| then false
    else w[positions[from]] != c || AnyMismatch(w, c, positions, from + 1)
  }

  /** `excludes(word)`: the word cannot be the secret given this fact. */
  function Excludes(k: Constraint, w: Word): bool
    requires WellFormed(k)
  {
    match k
    case Fixed(c, positions) => AnyMismatch(w, c, positions, 0)
    case Present(c, excluded) =>
      || !Contains(w, c)
      || ContainsAll(w, c, excluded)
      || !Letters.AnyMatch(Letters.Chars(Letters.IndexedChars(w)), c)
    case Unused(c) => Letters.AnyMatch(Letters.Chars(Letters.IndexedChars(w)), c)
  }

  /** What `excludes` decides, per kind: a `Fixed` rules out a word with a
      different letter at some listed position; a `Present` one whose every
      occurrence of the letter (possibly none) is at an excluded position; an
      `Unused` one that contains the letter anywhere. */
  lemma ExcludesMeaning(k: Constraint, w: Word)
    requires WellFormed(k)
    ensures k.Fixed? ==>
      (Excludes(k, w) <==> exists i :: 0 <= i < |k.positions| && w[k.positions[i]] != k.c)
    ensures k.Present? ==>
      (Excludes(k, w) <==> forall i :: 0 <= i < SIZE && w[i] == k.c ==> i in k.excluded)
    ensures k.Unused? ==>
      (Excludes(k, w) <==> exists i :: 0 <= i < SIZE && w[i] == k.c)
  {
    Letters.CharsOfIndexedChars(w);
  }

  /** The closing `noneMatch` test of `Present.excludes` never decides the
      outcome: whenever it holds, the opening `!contains` test already did. */
  lemma PresentLastTestRedundant(w: Word, c: char, excluded: seq<int>)
    ensures !Letters.AnyMatch(Letters.Chars(Letters.IndexedChars(w)), c) ==> !Contains(w, c)
    ensures Excludes(Present(c, excluded), w) <==> !Contains(w, c) || ContainsAll(w, c, excluded)
  {
    Letters.CharsOfIndexedChars(w);
    ExcludesMeaning(Present(c, excluded), w);
  }

  /** The `for` loop of `constraintFor`, resumed at `index`. */
  function ScanFrom(secret: Word, ic: Letters.IndexedChar, index: nat): (r: Constraint)
    requires index <= SIZE
    ensures r.c == ic.c
    decreases SIZE - index
  {
    if index == SIZE then Unused(ic.c)
    else if secret[index] == ic.c then
      if index == ic.index then Fixed(ic.c, [ic.index]) else Present(ic.c, [ic.index])
    else ScanFrom(secret, ic, index + 1)
  }

  /** Resumed at `index` with no earlier letter of the secret matching, the
      scan yields `Fixed` when the first match is the queried index, `Present`
      when there is a first match elsewhere, `Unused` when there is none. */
  lemma {:induction false} ScanFromMeaning(secret: Word, ic: Letters.IndexedChar, index: nat)
    requires index <= SIZE
    requires forall k :: 0 <= k < index ==> secret[k] != ic.c
    ensures ScanFrom(secret, ic, index) == Fixed(ic.c, [ic.index]) <==> Letters.FirstAt(secret, ic.c, ic.index)
    ensures ScanFrom(secret, ic, index) == Present(ic.c, [ic.index]) <==>
      (exists j :: index <= j < SIZE && secret[j] == ic.c) && !Letters.FirstAt(secret, ic.c, ic.index)
    ensures ScanFrom(secret, ic, index) == Unused(ic.c) <==> forall j :: index <= j < SIZE ==> secret[j] != ic.c
    decreases SIZE - index
  {
    if index < SIZE && secret[index] != ic.c {
      ScanFromMeaning(secret, ic, index + 1);
      assert forall j :: index <= j < SIZE && secret[j] == ic.c ==> index + 1 <= j;
    }
  }

  /** `secret.constraintFor(ic)`: the feedback fact the guess letter `ic`
      earns against `secret`, by the first-occurrence rule. */
  function ConstraintFor(secret: Word, ic: Letters.IndexedChar): (r: Constraint)
    ensures r.c == ic.c
  {
    ScanFrom(secret, ic, 0)
  }

  /** The derived fact is `Fixed` at the queried index exactly when the first
      occurrence of the letter in the secret is there, `Present` at the queried
      index exactly when the letter occurs but first occurs elsewhere (even
      if it also stands at the queried index), and `Unused` exactly when it
      does not occur; nothing else can come out. */
  lemma ConstraintForMeaning(secret: Word, ic: Letters.IndexedChar)
    ensures ConstraintFor(secret, ic) == Fixed(ic.c, [ic.index]) <==> Letters.FirstAt(secret, ic.c, ic.index)
    ensures ConstraintFor(secret, ic) == Present(ic.c, [ic.index]) <==>
      Contains(secret, ic.c) && !Letters.FirstAt(secret, ic.c, ic.index)
    ensures ConstraintFor(secret, ic) == Unused(ic.c) <==> !Contains(secret, ic.c)
    ensures ConstraintFor(secret, ic) in {Fixed(ic.c, [ic.index]), Present(ic.c, [ic.index]), Unused(ic.c)}
  {
    ScanFromMeaning(secret, ic, 0);
  }

  /** A fact derived against a secret never rules that secret out. */
  lemma DerivedNeverExcludesSecret(secret: Word, ic: Letters.IndexedChar)
    ensures WellFormed(ConstraintFor(secret, ic))
    ensures !Excludes(ConstraintFor(secret, ic), secret)
  {
    var r := ConstraintFor(secret, ic);
    ConstraintForMeaning(secret, ic);
    ExcludesMeaning(r, secret);
    if r.Present? {
      var j := Letters.IndexOf(secret, ic.c);
      assert Letters.FirstAt(secret, ic.c, j);
      assert j != ic.index;
    }
  }
}

=== FILE: game.dfy ===
/** The current revision's `Game`: an immutable record of the optional
    solution, the live candidates, the accumulated constraints and the
    guesses so far, with transitions that return new records. */
module Games {
  import opened Wrappers
  import opened Words
  import opened Constraints
  import Letters
  import Seqs
  import Ranking

  /** `IllegalStateException` and `IllegalArgumentException`. */
  datatype GameError = IllegalState | IllegalArgument

  datatype Game = Game(
    solution: Option<Word>,
    candidates: seq<Word>,
    constraints: seq<Constraint>,
    guesses: seq<Word>)

  /** `new Game(candidates)`: no solution, no constraints, no guesses. */
  function NewGame(candidates: seq<Word>): (g: Game)
    ensures g.solution.None? && g.candidates == candidates
    ensures g.constraints == [] && g.guesses == []
  {
    Game(None, candidates, [], [])
  }

  /** `set(solution)`: fixes the solution of a game nobody has guessed in yet. */
  function Set(g: Game, solution: Word): (r: Result<Game, GameError>)
    ensures |g.guesses| > 0 ==> r == Err(IllegalState)
    ensures |g.guesses| == 0 && solution !in g.candidates ==> r == Err(IllegalArgument)
    ensures r.Ok? <==> |g.guesses| == 0 && solution in g.candidates
    ensures r.Ok? ==> r.value.solution == Some(solution) && solution in r.value.candidates
    ensures r.Ok? ==> r.value == g.(solution := Some(solution))
  {
    if |g.guesses| == 0 then
      if solution in g.candidates then Ok(Game(Some(solution), g.candidates, g.constraints, g.guesses))
      else Err(IllegalArgument)
    else Err(IllegalState)
  }

  /** `includes(constraints, word)`: `noneMatch(constraint -> constraint.excludes(word))`. */
  function Includes(cs: seq<Constraint>, w: Word): bool
    requires AllWellFormed(cs)
  {
    if |cs| == 0 then true else !Excludes(cs[0], w) && Includes(cs[1..], w)
  }

  /** `includes` holds exactly when no constraint of the list excludes the word. */
  lemma {:induction false} IncludesMeaning(cs: seq<Constraint>, w: Word)
    requires AllWellFormed(cs)
    ensures Includes(cs, w) <==> forall i :: 0 <= i < |cs| ==> !Excludes(cs[i], w)
  {
    if |cs| > 0 {
      IncludesMeaning(cs[1..], w);
      assert forall i :: 1 <= i < |cs| ==> cs[i] == cs[1..][i - 1];
    }
  }

  /** `viable(candidates, constraints)`: the candidates no constraint excludes,
      in their original order. */
  function Viable(candidates: seq<Word>, cs: seq<Constraint>): (r: seq<Word>)
    requires AllWellFormed(cs)
    ensures Seqs.IsSubseq(r, candidates)
    ensures |r| <= |candidates|
    decreases |candidates|
  {
    if |candidates| == 0 then []
    else
      var init := candidates[..|candidates| - 1];
      var last := candidates[|candidates| - 1];
      var rest := Viable(init, cs);
      assert candidates == init + [last];
      Seqs.SubseqAppendBoth(rest, init, last);
      var r := if Includes(cs, last) then rest + [last] else rest;
      Seqs.SubseqMembers(r, candidates);
      r
  }

  /** `viable` keeps exactly the candidates the constraints include. */
  lemma {:induction false} ViableMeaning(candidates: seq<Word>, cs: seq<Constraint>)
    requires AllWellFormed(cs)
    ensures forall w :: w in Viable(candidates, cs) <==> w in candidates && Includes(cs, w)
    decreases |candidates|
  {
    if |candidates| > 0 {
      var init := candidates[..|candidates| - 1];
      var last := candidates[|candidates| - 1];
      ViableMeaning(init, cs);
      assert candidates == init + [last];
      assert forall w :: w in candidates <==> w in init || w == last;
    }
  }

  /** A word passes a concatenation of constraint lists exactly when it
      passes each list. */
  lemma {:induction false} IncludesAppend(a: seq<Constraint>, b: seq<Constraint>, w: Word)
    requires AllWellFormed(a) && AllWellFormed(b)
    ensures AllWellFormed(a + b)
    ensures Includes(a + b, w) <==> Includes(a, w) && Includes(b, w)
  {
    assert forall i :: 0 <= i < |a| ==> (a + b)[i] == a[i];
    assert forall i :: 0 <= i < |b| ==> (a + b)[|a| + i] == b[i];
    IncludesMeaning(a, w);
    IncludesMeaning(b, w);
    IncludesMeaning(a + b, w);
    if Includes(a, w) && Includes(b, w) {
      forall i | 0 <= i < |a + b|
        ensures !Excludes((a + b)[i], w)
      {
        if i < |a| {
          assert (a + b)[i] == a[i];
        } else {
          assert (a + b)[i] == b[i - |a|];
        }
      }
    }
  }

  lemma ViableSnoc(xs: seq<Word>, y: Word, cs: seq<Constraint>)
    requires AllWellFormed(cs)
    ensures Viable(xs + [y], cs) == Viable(xs, cs) + (if Includes(cs, y) then [y] else [])
  {
    assert (xs + [y])[..|xs + [y]| - 1] == xs;
  }

  /** Filtering by a list of constraints is filtering by each in turn. */
  lemma {:induction false} ViableInStages(candidates: seq<Word>, a: seq<Constraint>, b: seq<Constraint>)
    requires AllWellFormed(a) && AllWellFormed(b)
    ensures AllWellFormed(a + b)
    ensures Viable(candidates, a + b) == Viable(Viable(candidates, a), b)
    decreases |candidates|
  {
    assert AllWellFormed(a + b) by {
      IncludesAppend(a, b, "SLATE");
    }
    if |candidates| > 0 {
      var init := candidates[..|candidates| - 1];
      var last := candidates[|candidates| - 1];
      assert candidates == init + [last];
      ViableInStages(init, a, b);
      IncludesAppend(a, b, last);
      ViableSnoc(init, last, a + b);
      ViableSnoc(init, last, a);
      if Includes(a, last) {
        ViableSnoc(Viable(init, a), last, b);
      }
    }
  }

  /** `mergeConstraints(old, new)`: the concatenation with later duplicates
      dropped. */
  function MergeConstraints(a: seq<Constraint>, b: seq<Constraint>): (r: seq<Constraint>)
    ensures AllWellFormed(a) && AllWellFormed(b) ==> AllWellFormed(r)
  {
    var r := Seqs.Distinct(a + b);
    MergeMembers(a, b);
    r
  }

  /** The merged list is duplicate-free and holds every constraint of either
      input and nothing else. */
  lemma MergeMembers(a: seq<Constraint>, b: seq<Constraint>)
    ensures Seqs.NoDup(Seqs.Distinct(a + b))
    ensures forall i :: 0 <= i < |a| ==> a[i] in Seqs.Distinct(a + b)
    ensures forall i :: 0 <= i < |b| ==> b[i] in Seqs.Distinct(a + b)
    ensures forall i :: 0 <= i < |Seqs.Distinct(a + b)| ==> Seqs.Distinct(a + b)[i] in a || Seqs.Distinct(a + b)[i] in b
  {
    var ab := a + b;
    var r := Seqs.Distinct(ab);
    forall i | 0 <= i < |a|
      ensures a[i] in r
    {
      assert ab[i] == a[i];
    }
    forall i | 0 <= i < |b|
      ensures b[i] in r
    {
      assert ab[|a| + i] == b[i];
    }
    Seqs.SubseqMembers(r, ab);
    forall i | 0 <= i < |r|
      ensures r[i] in a || r[i] in b
    {
      assert r[i] in ab;
      var k :| 0 <= k < |ab| && ab[k] == r[i];
      if k < |a| {
        assert ab[k] == a[k];
      } else {
        assert ab[k] == b[k - |a|];
      }
    }
  }

  /** Merging a constraint list with itself yields its `distinct()`. */
  lemma MergeWithItself(a: seq<Constraint>)
    ensures MergeConstraints(a, a) == Seqs.Distinct(a)
  {
    Seqs.DistinctOfDoubled(a);
  }

  /** A word passes the merged list exactly when it passes both parts. */
  lemma IncludesMerged(a: seq<Constraint>, b: seq<Constraint>, w: Word)
    requires AllWellFormed(a) && AllWellFormed(b)
    ensures Includes(MergeConstraints(a, b), w) <==> Includes(a, w) && Includes(b, w)
  {
    var m := MergeConstraints(a, b);
    MergeMembers(a, b);
    IncludesMeaning(a, w);
    IncludesMeaning(b, w);
    IncludesMeaning(m, w);
    if Includes(a, w) && Includes(b, w) {
      forall i | 0 <= i < |m|
        ensures !Excludes(m[i], w)
      {
        if m[i] in a {
          var j :| 0 <= j < |a| && a[j] == m[i];
        } else {
          var j :| 0 <= j < |b| && b[j] == m[i];
        }
      }
    }
    if Includes(m, w) {
      forall i | 0 <= i < |a|
        ensures !Excludes(a[i], w)
      {
        var j :| 0 <= j < |m| && m[j] == a[i];
      }
      forall i | 0 <= i < |b|
        ensures !Excludes(b[i], w)
      {
        var j :| 0 <= j < |m| && m[j] == b[i];
      }
    }
  }

  /** `constraintsAgainst(assumed, guess)`: one fact per letter of the guess,
      derived against `assumed`. */
  function ConstraintsAgainst(assumed: Word, guess: Word): (r: seq<Constraint>)
    ensures |r| == SIZE
    ensures forall i :: 0 <= i < SIZE ==> r[i].c == guess[i]
    ensures forall i :: 0 <= i < SIZE ==> r[i] == ConstraintFor(assumed, Letters.IndexedChar(i, guess[i]))
    ensures AllWellFormed(r)
  {
    var ics := Letters.IndexedChars(guess);
    var r := seq(|ics|, i requires 0 <= i < |ics| => ConstraintFor(assumed, ics[i]));
    forall i | 0 <= i < SIZE
      ensures WellFormed(r[i])
    {
      DerivedNeverExcludesSecret(assumed, ics[i]);
    }
    r
  }

  /** The constraints a guess earns against a word all include that word. */
  lemma OwnConstraintsIncludeSecret(assumed: Word, guess: Word)
    ensures Includes(ConstraintsAgainst(assumed, guess), assumed)
  {
    var r := ConstraintsAgainst(assumed, guess);
    var ics := Letters.IndexedChars(guess);
    forall i | 0 <= i < SIZE
      ensures !Excludes(r[i], assumed)
    {
      DerivedNeverExcludesSecret(assumed, ics[i]);
    }
    IncludesMeaning(r, assumed);
  }

  /** `apply(guess, guessConstraints)`: merges the new facts in, trims the
      candidates with the merged list and records the guess. */
  function Apply(g: Game, guess: Word, guessConstraints: seq<Constraint>): (r: Game)
    requires AllWellFormed(g.constraints) && AllWellFormed(guessConstraints)
    ensures r.solution == g.solution
    ensures r.guesses == g.guesses + [guess]
    ensures r.constraints == MergeConstraints(g.constraints, guessConstraints)
    ensures AllWellFormed(r.constraints)
    ensures r.candidates == Viable(g.candidates, r.constraints)
    ensures Seqs.IsSubseq(r.candidates, g.candidates)
    ensures |r.candidates| <= |g.candidates|
  {
    var merged := MergeConstraints(g.constraints, guessConstraints);
    Game(g.solution, Viable(g.candidates, merged), merged, g.guesses + [guess])
  }

  /** After `apply`, the candidates are exactly the old candidates that both
      the old and the new constraints include. */
  lemma ApplyMeaning(g: Game, guess: Word, guessConstraints: seq<Constraint>)
    requires AllWellFormed(g.constraints) && AllWellFormed(guessConstraints)
    ensures forall w :: w in Apply(g, guess, guessConstraints).candidates <==>
      w in g.candidates && Includes(g.constraints, w) && Includes(guessConstraints, w)
  {
    var merged := MergeConstraints(g.constraints, guessConstraints);
    ViableMeaning(g.candidates, merged);
    forall w
      ensures w in Viable(g.candidates, merged) <==>
        w in g.candidates && Includes(g.constraints, w) && Includes(guessConstraints, w)
    {
      IncludesMerged(g.constraints, guessConstraints, w);
    }
  }

  /** `tryWord(guess)`: scores the guess against the known solution and applies
      the result; a game without a solution refuses. */
  function TryWord(g: Game, guess: Word): (r: Result<Game, GameError>)
    requires AllWellFormed(g.constraints)
    ensures r.Err? <==> g.solution.None?
    ensures r.Err? ==> r.error == IllegalState
    ensures r.Ok? ==> r.value.solution == g.solution
    ensures r.Ok? ==> r.value.guesses == g.guesses + [guess]
    ensures r.Ok? ==> AllWellFormed(r.value.constraints)
    ensures r.Ok? ==> Seqs.IsSubseq(r.value.candidates, g.candidates)
    ensures r.Ok? ==> |r.value.candidates| <= |g.candidates|
  {
    match g.solution
    case None => Err(IllegalState)
    case Some(s) => Ok(Apply(g, guess, ConstraintsAgainst(s, guess)))
  }

  /** `elimination(guess, assumingSolution)`: how many candidates the guess
      would remove were `assumed` the solution. */
  function Elimination(g: Game, guess: Word, assumed: Word): (r: Ranking.WordElim<Word>)
    requires AllWellFormed(g.constraints)
    ensures r.word == guess
    ensures 0 <= r.eliminated <= |g.candidates|
  {
    var combined := MergeConstraints(g.constraints, ConstraintsAgainst(assumed, guess));
    var remaining := |Viable(g.candidates, combined)|;
    Ranking.WordElim(guess, |g.candidates| - remaining)
  }

  /** The score of a guess against the real solution is exactly how far
      `tryWord` with that guess shrinks the candidates. */
  lemma EliminationPredictsTryWord(g: Game, guess: Word)
    requires AllWellFormed(g.constraints)
    requires g.solution.Some?
    ensures TryWord(g, guess).Ok?
    ensures Elimination(g, guess, g.solution.value).eliminated
      == |g.candidates| - |TryWord(g, guess).value.candidates|
  {
  }

  /** `candidates.stream().map(guess -> elimination(guess, assumed))`. */
  function Eliminations(g: Game, guesses: seq<Word>, assumed: Word): (r: seq<Ranking.WordElim<Word>>)
    requires AllWellFormed(g.constraints)
    ensures |r| == |guesses|
    ensures forall i :: 0 <= i < |r| ==> r[i].word == guesses[i] && 0 <= r[i].eliminated <= |g.candidates|
  {
    seq(|guesses|, i requires 0 <= i < |guesses| => Elimination(g, guesses[i], assumed))
  }

  /** `hotCandidates(assumingSolution)`: every candidate with its score, best
      first; equal scores keep candidate order. */
  function HotCandidates(g: Game, assumed: Word): (r: seq<Ranking.WordElim<Word>>)
    requires AllWellFormed(g.constraints)
    ensures |r| == |g.candidates|
    ensures multiset(r) == multiset(Eliminations(g, g.candidates, assumed))
    ensures forall i, j :: 0 <= i < j < |r| ==> r[i].eliminated >= r[j].eliminated
  {
    Ranking.Rank(Eliminations(g, g.candidates, assumed))
  }

  /** Every ranked entry scores one of the candidates, within the candidate count. */
  lemma HotCandidatesMembers(g: Game, assumed: Word)
    requires AllWellFormed(g.constraints)
    ensures forall e :: e in HotCandidates(g, assumed) ==>
      e.word in g.candidates && 0 <= e.eliminated <= |g.candidates|
  {
    var es := Eliminations(g, g.candidates, assumed);
    var r := HotCandidates(g, assumed);
    forall e | e in r
      ensures e.word in g.candidates && 0 <= e.eliminated <= |g.candidates|
    {
      assert e in multiset(r);
      assert e in es;
    }
  }

  /** Entries of each score appear in `hotCandidates` in candidate order. */
  lemma HotCandidatesStable(g: Game, assumed: Word, k: int)
    requires AllWellFormed(g.constraints)
    ensures Ranking.WithScore(HotCandidates(g, assumed), k)
      == Ranking.WithScore(Eliminations(g, g.candidates, assumed), k)
  {
    Ranking.RankIsStable(Eliminations(g, g.candidates, assumed), k);
  }

  /** `hottestCandidates()` for a game with a known solution: the top tier
      of `hotCandidates`. */
  function HottestCandidates(g: Game): (r: seq<Ranking.WordElim<Word>>)
    requires AllWellFormed(g.constraints)
    requires g.solution.Some?
    ensures Seqs.IsSubseq(r, HotCandidates(g, g.solution.value))
    ensures forall i, j :: 0 <= i < |r| && 0 <= j < |HotCandidates(g, g.solution.value)| ==>
      HotCandidates(g, g.solution.value)[j].eliminated <= r[i].eliminated
    ensures forall e ::
      (e in HotCandidates(g, g.solution.value) &&
       e.eliminated == Ranking.MaxElimination(HotCandidates(g, g.solution.value))) ==> e in r
    ensures forall e ::
      multiset(r)[e] == (if e.eliminated == Ranking.MaxElimination(HotCandidates(g, g.solution.value))
        then multiset(HotCandidates(g, g.solution.value))[e] else 0)
    ensures |r| > 0 <==> |g.candidates| > 0
  {
    Ranking.Hottest(HotCandidates(g, g.solution.value))
  }

  /** No letter of the word repeats. */
  predicate DistinctLetters(w: Word)
  {
    forall i, j :: 0 <= i < j < SIZE ==> w[i] != w[j]
  }

  /** Against a word with distinct letters, guessing that word earns a `Fixed`
      at every position, so the earned constraints include that word alone. */
  lemma {:induction false} OwnGuessPinsWord(s: Word, w: Word)
    requires DistinctLetters(s)
    requires Includes(ConstraintsAgainst(s, s), w)
    ensures w == s
  {
    var r := ConstraintsAgainst(s, s);
    var ics := Letters.IndexedChars(s);
    IncludesMeaning(r, w);
    forall i | 0 <= i < SIZE
      ensures w[i] == s[i]
    {
      assert ics[i] == Letters.IndexedChar(i, s[i]);
      assert Letters.FirstAt(s, s[i], i);
      ConstraintForMeaning(s, ics[i]);
      assert r[i] == Fixed(s[i], [i]);
      ExcludesMeaning(r[i], w);
      assert !Excludes(r[i], w);
    }
  }

  /** A constraint list that includes no word the other excludes keeps no
      more candidates. */
  lemma {:induction false} ViableCountMonotone(candidates: seq<Word>, a: seq<Constraint>, b: seq<Constraint>)
    requires AllWellFormed(a) && AllWellFormed(b)
    requires forall w :: Includes(a, w) ==> Includes(b, w)
    ensures |Viable(candidates, a)| <= |Viable(candidates, b)|
    decreases |candidates|
  {
    if |candidates| > 0 {
      ViableCountMonotone(candidates[..|candidates| - 1], a, b);
    }
  }

  /** Were `assumed` the solution, and its letters distinct, no guess would
      eliminate more candidates than `assumed` itself. */
  lemma OwnGuessEliminatesMost(g: Game, assumed: Word, guess: Word)
    requires AllWellFormed(g.constraints)
    requires DistinctLetters(assumed)
    ensures Elimination(g, guess, assumed).eliminated <= Elimination(g, assumed, assumed).eliminated
  {
    var own := MergeConstraints(g.constraints, ConstraintsAgainst(assumed, assumed));
    var other := MergeConstraints(g.constraints, ConstraintsAgainst(assumed, guess));
    forall w | Includes(own, w)
      ensures Includes(other, w)
    {
      IncludesMerged(g.constraints, ConstraintsAgainst(assumed, assumed), w);
      OwnGuessPinsWord(assumed, w);
      OwnConstraintsIncludeSecret(assumed, guess);
      IncludesMerged(g.constraints, ConstraintsAgainst(assumed, guess), w);
    }
    ViableCountMonotone(g.candidates, own, other);
  }

  /** A candidate solution with distinct letters scores the maximum, so its
      entry is in the top tier of `hottestCandidates()`. */
  lemma SolutionIsHottest(g: Game)
    requires AllWellFormed(g.constraints)
    requires g.solution.Some? && g.solution.value in g.candidates
    requires DistinctLetters(g.solution.value)
    ensures Elimination(g, g.solution.value, g.solution.value) in HottestCandidates(g)
  {
    var s := g.solution.value;
    var es := Eliminations(g, g.candidates, s);
    var e := Elimination(g, s, s);
    forall k | 0 <= k < |es|
      ensures es[k].eliminated <= e.eliminated
    {
      OwnGuessEliminatesMost(g, s, g.candidates[k]);
    }
    var j :| 0 <= j < |g.candidates| && g.candidates[j] == s;
    assert es[j] == e;
    Ranking.TopOfPermutation(es, HotCandidates(g, s), e);
  }

  /** `done()`: no candidate is left, or the last guess was the solution. */
  function Done(g: Game): bool
  {
    |g.candidates| == 0 || (|g.guesses| > 0 && Some(g.guesses[|g.guesses| - 1]) == g.solution)
  }

  /** The solution is known, still a candidate, and allowed by every constraint. */
  predicate Consistent(g: Game)
  {
    && g.solution.Some?
    && g.solution.value in g.candidates
    && AllWellFormed(g.constraints)
    && Includes(g.constraints, g.solution.value)
  }

  /** `set` on a fresh game yields a consistent one. */
  lemma SetStartsConsistent(candidates: seq<Word>, solution: Word)
    requires solution in candidates
    ensures Set(NewGame(candidates), solution).Ok?
    ensures Consistent(Set(NewGame(candidates), solution).value)
  {
  }

  /** `tryWord` never loses the solution: constraints derived against it never
      exclude it. */
  lemma TryWordKeepsSolution(g: Game, guess: Word)
    requires Consistent(g)
    ensures TryWord(g, guess).Ok?
    ensures Consistent(TryWord(g, guess).value)
  {
    var s := g.solution.value;
    var gcs := ConstraintsAgainst(s, guess);
    OwnConstraintsIncludeSecret(s, guess);
    IncludesMerged(g.constraints, gcs, s);
    ApplyMeaning(g, guess, gcs);
    var next := Apply(g, guess, gcs);
    assert TryWord(g, guess) == Ok(next);
    assert s in next.candidates;
  }

  /** Plays a sequence of guesses with `tryWord`, stopping at the first refusal. */
  function Play(g: Game, guesses: seq<Word>): (r: Result<Game, GameError>)
    requires AllWellFormed(g.constraints)
    ensures r.Ok? ==> AllWellFormed(r.value.constraints)
    decreases |guesses|
  {
    if |guesses| == 0 then Ok(g)
    else
      var step := TryWord(g, guesses[0]);
      if step.Err? then step else Play(step.value, guesses[1..])
  }

  /** A finished play records every guess, in order. */
  lemma {:induction false} PlayRecordsGuesses(g: Game, guesses: seq<Word>)
    requires AllWellFormed(g.constraints)
    ensures Play(g, guesses).Ok? ==> Play(g, guesses).value.guesses == g.guesses + guesses
    decreases |guesses|
  {
    if |guesses| > 0 && Play(g, guesses).Ok? {
      var next := PlayStep(g, guesses);
      var rest := guesses[1..];
      PlayRecordsGuesses(next, rest);
      assert guesses == [guesses[0]] + rest;
      Seqs.SnocThenAppend(g.guesses, guesses[0], rest);
    }
  }

  /** A successful play made its first `tryWord`, which recorded the first
      guess, and then played the rest from there. */
  lemma PlayStep(g: Game, guesses: seq<Word>) returns (next: Game)
    requires AllWellFormed(g.constraints)
    requires |guesses| > 0 && Play(g, guesses).Ok?
    ensures AllWellFormed(next.constraints)
    ensures next.guesses == g.guesses + [guesses[0]]
    ensures Play(g, guesses) == Play(next, guesses[1..])
  {
    next := TryWord(g, guesses[0]).value;
  }

  /** A play never adds candidates. */
  lemma {:induction false} PlayNarrows(g: Game, guesses: seq<Word>)
    requires AllWellFormed(g.constraints)
    ensures Play(g, guesses).Ok? ==> |Play(g, guesses).value.candidates| <= |g.candidates|
    decreases |guesses|
  {
    if |guesses| > 0 {
      var step := TryWord(g, guesses[0]);
      if step.Ok? {
        assert Play(g, guesses) == Play(step.value, guesses[1..]);
        PlayNarrows(step.value, guesses[1..]);
      }
    }
  }

  /** Once set, the solution survives every sequence of guesses, so the
      candidates never run dry. */
  lemma {:induction false} PlayKeepsSolution(g: Game, guesses: seq<Word>)
    requires Consistent(g)
    ensures Play(g, guesses).Ok?
    ensures Consistent(Play(g, guesses).value)
    ensures Play(g, guesses).value.solution == g.solution
    ensures |Play(g, guesses).value.candidates| > 0
    decreases |guesses|
  {
    if |guesses| > 0 {
      TryWordKeepsSolution(g, guesses[0]);
      PlayKeepsSolution(TryWord(g, guesses[0]).value, guesses[1..]);
    }
  }

  /** In a consistent game, `done()` means exactly that the last guess was the
      solution; guessing the solution finishes the game. */
  lemma DoneWhenSolved(g: Game)
    requires Consistent(g)
    ensures Done(g) <==> |g.guesses| > 0 && g.guesses[|g.guesses| - 1] == g.solution.value
    ensures Done(TryWord(g, g.solution.value).value)
  {
  }
}

=== FILE: legacy_constraints.dfy ===
/** The older revision's `Constraint`: the same three kinds of feedback fact,
    but with a single index for `Fixed`, a weaker reading of `Present`, and a
    per-letter `merge` that combines two facts about one letter. The
    derivation of a fact from a secret (`Word.indexOf`) lives here too, since
    it builds constraints. */
module LegacyConstraints {
  import opened Wrappers
  import opened Words
  import LegacyWords
  import Letters
  import Seqs
  import Sorting

  /** `Fixed(c, index)`: `c` stands at `index`.
      `Present(c, excluded)`: `c` occurs, but at none of the listed positions.
      `Unused(c)`: `c` does not occur. */
  datatype Constraint =
    | Fixed(c: char, index: int)
    | Present(c: char, excluded: seq<int>)
    | Unused(c: char)

  /** The `IllegalStateException("Unexpected value: " + other)` of `Present.merge`. */
  datatype MergeError = UnexpectedValue(other: Constraint)

  /** Every position a constraint mentions indexes into a word; `charAt` and
      `letters[exc]` throw otherwise. */
  predicate WellFormed(k: Constraint)
  {
    match k
    case Fixed(_, index) => 0 <= index < SIZE
    case Present(_, excluded) => forall i :: 0 <= i < |excluded| ==> 0 <= excluded[i] < SIZE
    case Unused(_) => true
  }

  predicate AllWellFormed(ks: seq<Constraint>)
  {
    forall i :: 0 <= i < |ks| ==> WellFormed(ks[i])
  }

  /** Two lists of well-formed constraints concatenate into one. */
  lemma AppendWellFormed(a: seq<Constraint>, b: seq<Constraint>)
    requires AllWellFormed(a) && AllWellFormed(b)
    ensures AllWellFormed(a + b)
  {
    var ab := a + b;
    forall i | 0 <= i < |ab|
      ensures WellFormed(ab[i])
    {
      if i < |a| {
        assert ab[i] == a[i];
      } else {
        assert ab[i] == b[i - |a|];
      }
    }
  }

  /** `excludes(word)`: the word cannot be the secret given this fact. */
  function Excludes(k: Constraint, w: Word): bool
    requires WellFormed(k)
  {
    match k
    case Fixed(c, index) => w[index] != c
    case Present(c, excluded) =>
      || !LegacyWords.Contains(w, c)
      || LegacyWords.ContainsAt(w, c, excluded)
      || !Letters.AnyMatch(Letters.Chars(Letters.IndexedChars(w)), c)
    case Unused(c) => Letters.AnyMatch(Letters.Chars(Letters.IndexedChars(w)), c)
  }

  /** What `excludes` decides, per kind: a `Fixed` rules out a word with
      another letter at its index; a `Present` one that lacks the letter or
      has it at some excluded position; an `Unused` one that has the letter. */
  lemma ExcludesMeaning(k: Constraint, w: Word)
    requires WellFormed(k)
    ensures k.Fixed? ==> (Excludes(k, w) <==> w[k.index] != k.c)
    ensures k.Present? ==> (Excludes(k, w) <==>
      (forall i :: 0 <= i < SIZE ==> w[i] != k.c) ||
      (exists j :: 0 <= j < |k.excluded| && w[k.excluded[j]] == k.c))
    ensures k.Unused? ==> (Excludes(k, w) <==> exists i :: 0 <= i < SIZE && w[i] == k.c)
  {
    Letters.CharsOfIndexedChars(w);
  }

  /** The closing `noneMatch` test of `Present.excludes` never decides the
      outcome: whenever it holds, the opening `!contains` test already did. */
  lemma PresentLastTestRedundant(w: Word, c: char, excluded: seq<int>)
    requires forall i :: 0 <= i < |excluded| ==> 0 <= excluded[i] < SIZE
    ensures !Letters.AnyMatch(Letters.Chars(Letters.IndexedChars(w)), c) ==> !LegacyWords.Contains(w, c)
    ensures Excludes(Present(c, excluded), w) <==>
      !LegacyWords.Contains(w, c) || LegacyWords.ContainsAt(w, c, excluded)
  {
    Letters.CharsOfIndexedChars(w);
  }

  /** The natural order of `Integer`, which `sorted()` uses on positions. */
  function IntLe(): (int, int) -> bool
  {
    (a: int, b: int) => a <= b
  }

  lemma IntLeIsTotalPreorder()
    ensures Sorting.TotalPreorder(IntLe())
  {
  }

  predicate StrictlyAscending(s: seq<int>)
  {
    forall i, j :: 0 <= i < j < |s| ==> s[i] < s[j]
  }

  /** `Present.merge(Present)`'s position list: both lists concatenated,
      `distinct()`, then `sorted()`. */
  function UnionPositions(a: seq<int>, b: seq<int>): seq<int>
  {
    IntLeIsTotalPreorder();
    Sorting.SortDistinct(a + b, IntLe())
  }

  /** The merged positions are exactly those of either list, each once, in
      increasing order. */
  lemma UnionPositionsMeaning(a: seq<int>, b: seq<int>)
    ensures StrictlyAscending(UnionPositions(a, b))
    ensures forall x :: x in UnionPositions(a, b) <==> x in a || x in b
  {
    IntLeIsTotalPreorder();
    var r := UnionPositions(a, b);
    Sorting.SortDistinctMeaning(a + b, IntLe());
    forall x
      ensures x in r <==> x in a || x in b
    {
      if x in a + b {
        var i :| 0 <= i < |a + b| && (a + b)[i] == x;
      }
    }
    forall i, j | 0 <= i < j < |r|
      ensures r[i] < r[j]
    {
      assert IntLe()(r[i], r[j]);
    }
  }

  /** `merge(other)`: `Fixed` and `Unused` keep themselves whatever they meet;
      a `Present` gives way to a `Fixed`, pools its excluded positions with
      another `Present` under its own letter, and refuses an `Unused`. */
  function Merge(k: Constraint, other: Constraint): (r: Result<Constraint, MergeError>)
    ensures r.Err? <==> k.Present? && other.Unused?
    ensures r.Err? ==> r.error == UnexpectedValue(other)
    ensures k.Fixed? || k.Unused? ==> r == Ok(k)
    ensures k.Present? && other.Fixed? ==> r == Ok(other)
    ensures k.Present? && other.Present? ==> r.Ok? && r.value.Present? && r.value.c == k.c
  {
    match k
    case Fixed(_, _) => Ok(k)
    case Unused(_) => Ok(k)
    case Present(c, excluded) =>
      match other
      case Fixed(_, _) => Ok(other)
      case Present(_, more) => Ok(Present(c, UnionPositions(excluded, more)))
      case Unused(_) => Err(UnexpectedValue(other))
  }

  /** Two `Present` facts merge into one whose positions are those of either,
      strictly ascending. */
  lemma MergePresentUnion(k: Constraint, other: Constraint)
    requires k.Present? && other.Present?
    ensures Merge(k, other).Ok?
    ensures StrictlyAscending(Merge(k, other).value.excluded)
    ensures forall x :: x in Merge(k, other).value.excluded <==> x in k.excluded || x in other.excluded
  {
    UnionPositionsMeaning(k.excluded, other.excluded);
  }

  /** A `Present` whose positions are already sorted and distinct merges with
      itself into itself. */
  lemma MergeWithItself(k: Constraint)
    requires k.Present? && StrictlyAscending(k.excluded)
    ensures Merge(k, k) == Ok(k)
  {
    IntLeIsTotalPreorder();
    Seqs.DistinctOfDoubled(k.excluded);
    assert Seqs.NoDup(k.excluded);
    Seqs.DistinctOfNoDup(k.excluded);
    assert Sorting.SortedBy(k.excluded, IntLe());
    Sorting.SortOfSorted(k.excluded, IntLe());
  }

  /** `secret.indexOf(ic)`: the feedback fact the guess letter `ic` earns
      against `secret`, by the first-occurrence rule — `Fixed` when the first
      occurrence of the letter is at the queried index, `Present` (excluding
      the queried index) when it is elsewhere, `Unused` when there is none. */
  function Derive(secret: Word, ic: Letters.IndexedChar): (r: Constraint)
    ensures r.c == ic.c
    ensures r == Fixed(ic.c, ic.index) <==> Letters.FirstAt(secret, ic.c, ic.index)
    ensures r == Present(ic.c, [ic.index]) <==>
      (exists j :: 0 <= j < SIZE && secret[j] == ic.c) && !Letters.FirstAt(secret, ic.c, ic.index)
    ensures r == Unused(ic.c) <==> forall j :: 0 <= j < SIZE ==> secret[j] != ic.c
  {
    var first := Letters.IndexOf(secret, ic.c);
    if first < 0 then Unused(ic.c)
    else if first == ic.index then Fixed(ic.c, ic.index)
    else Present(ic.c, [ic.index])
  }

  /** The fact is consistent with `secret` occurring or not: an `Unused`
      letter is absent from it, a `Fixed` or `Present` one occurs in it. */
  predicate Agrees(k: Constraint, secret: Word)
  {
    if k.Unused? then !LegacyWords.Contains(secret, k.c) else LegacyWords.Contains(secret, k.c)
  }

  predicate AllAgree(ks: seq<Constraint>, secret: Word)
  {
    forall i :: 0 <= i < |ks| ==> Agrees(ks[i], secret)
  }

  /** A fact derived for a position of a five-letter guess mentions only that
      position and agrees with the secret it was derived against. */
  lemma DerivedAgrees(secret: Word, ic: Letters.IndexedChar)
    requires 0 <= ic.index < SIZE
    ensures WellFormed(Derive(secret, ic))
    ensures Agrees(Derive(secret, ic), secret)
  {
  }

  /** Merging two facts about one letter that agree with a secret never
      fails, and the outcome still agrees and mentions only word positions. */
  lemma MergeAgrees(k: Constraint, other: Constraint, secret: Word)
    requires k.c == other.c
    requires Agrees(k, secret) && Agrees(other, secret)
    requires WellFormed(k) && WellFormed(other)
    ensures Merge(k, other).Ok?
    ensures Merge(k, other).value.c == k.c
    ensures Agrees(Merge(k, other).value, secret)
    ensures WellFormed(Merge(k, other).value)
  {
    if k.Present? && other.Present? {
      MergePresentUnion(k, other);
      var ex := Merge(k, other).value.excluded;
      forall i | 0 <= i < |ex|
        ensures 0 <= ex[i] < SIZE
      {
        assert ex[i] in ex;
        if ex[i] in k.excluded {
          var j :| 0 <= j < |k.excluded| && k.excluded[j] == ex[i];
        } else {
          var j :| 0 <= j < |other.excluded| && other.excluded[j] == ex[i];
        }
      }
    }
  }

  /** Derived against a secret, a letter's fact rules that same secret out
      exactly when the guess has the letter where the secret has it too, but
      the secret has it earlier as well: the `Present` the first-occurrence
      rule gives then excludes the very position the secret uses. */
  lemma DerivedExcludesSecret(secret: Word, ic: Letters.IndexedChar)
    requires 0 <= ic.index < SIZE
    ensures Excludes(Derive(secret, ic), secret) <==>
      secret[ic.index] == ic.c && !Letters.FirstAt(secret, ic.c, ic.index)
  {
    var k := Derive(secret, ic);
    ExcludesMeaning(k, secret);
    if k.Present? {
      assert k.excluded == [ic.index];
    }
  }

  /** Secret ABACK, guess letter A at index 2: the derived fact is
      `Present('A', [2])`, and it rules ABACK out. */
  lemma SecretExcludedExample()
    ensures Derive("ABACK", Letters.IndexedChar(2, 'A')) == Present('A', [2])
    ensures Excludes(Present('A', [2]), "ABACK")
  {
    var ic := Letters.IndexedChar(2, 'A');
    assert !Letters.FirstAt("ABACK", 'A', 2) by {
      assert "ABACK"[0] == 'A';
    }
    assert "ABACK"[2] == 'A';
    DerivedExcludesSecret("ABACK", ic);
  }
}

=== FILE: legacy_game.dfy ===
/** The older revision's `Game`: a record of the secret word, the remaining
    candidates, the merged constraints and the guesses so far. Each guess is
    scored against the secret, its facts are merged letter by letter with the
    known ones (`mergeConstraints`), and the candidates are filtered by the
    merged list alone. */
module LegacyGames {
  import opened Wrappers
  import opened Words
  import opened LegacyConstraints
  import Letters
  import Seqs
  import Sorting
  import Ranking

  datatype Game = Game(word: Word, candidates: seq<Word>, constraints: seq<Constraint>, guesses: seq<Word>)

  /** `new Game(word, candidates)`: nothing guessed, nothing known. */
  function NewGame(word: Word, candidates: seq<Word>): Game
  {
    Game(word, candidates, [], [])
  }

  // ---------------------------------------------------------------------------
  // mergeConstraints: group by letter, fold each group with `merge`, sort by letter

  /** The letter of each constraint, in order: the `Constraint::c` keys that
      `groupingBy` reads. It projects constraints the way `Letters.Chars`
      projects indexed chars; the element types differ, so each has its own. */
  function LettersOf(ks: seq<Constraint>): (r: seq<char>)
    ensures |r| == |ks|
    ensures forall i :: 0 <= i < |ks| ==> r[i] == ks[i].c
  {
    seq(|ks|, i requires 0 <= i < |ks| => ks[i].c)
  }

  /** The natural order of `char`, which `Constraint.compareTo` uses. */
  function CharLe(): (char, char) -> bool
  {
    (a: char, b: char) => a <= b
  }

  lemma CharLeIsTotalPreorder()
    ensures Sorting.TotalPreorder(CharLe())
  {
  }

  /** The distinct letters of the input, ascending: the keys of the
      `groupingBy` map, in the order the final `sorted()` puts their values. */
  function Keys(ks: seq<Constraint>): seq<char>
  {
    CharLeIsTotalPreorder();
    Sorting.SortDistinct(LettersOf(ks), CharLe())
  }

  /** The keys are strictly ascending and are exactly the letters constrained. */
  lemma KeysMeaning(ks: seq<Constraint>)
    ensures forall i, j :: 0 <= i < j < |Keys(ks)| ==> Keys(ks)[i] < Keys(ks)[j]
    ensures forall c :: c in Keys(ks) <==> exists i :: 0 <= i < |ks| && ks[i].c == c
  {
    CharLeIsTotalPreorder();
    var letters := LettersOf(ks);
    Sorting.SortDistinctMeaning(letters, CharLe());
    var r := Keys(ks);
    forall i, j | 0 <= i < j < |r|
      ensures r[i] < r[j]
    {
      assert CharLe()(r[i], r[j]);
    }
    forall c
      ensures c in r <==> exists i :: 0 <= i < |ks| && ks[i].c == c
    {
      if c in r {
        var t :| 0 <= t < |r| && r[t] == c;
        var i :| 0 <= i < |letters| && letters[i] == c;
        assert ks[i].c == c;
      }
      if exists i :: 0 <= i < |ks| && ks[i].c == c {
        var i :| 0 <= i < |ks| && ks[i].c == c;
        assert letters[i] == c;
      }
    }
  }

  /** The `groupingBy(Constraint::c)` list for letter `c`: the constraints on
      `c`, in encounter order. */
  function Group(ks: seq<Constraint>, c: char): (r: seq<Constraint>)
    ensures forall i :: 0 <= i < |r| ==> r[i].c == c
  {
    if |ks| == 0 then []
    else (if ks[0].c == c then [ks[0]] else []) + Group(ks[1..], c)
  }

  /** A letter's group holds exactly the constraints on that letter. */
  lemma {:induction false} GroupMembers(ks: seq<Constraint>, c: char)
    ensures forall k :: k in Group(ks, c) <==> k in ks && k.c == c
  {
    if |ks| > 0 {
      GroupMembers(ks[1..], c);
      assert ks == [ks[0]] + ks[1..];
    }
  }

  /** Grouping a concatenation groups each part. */
  lemma {:induction false} GroupAppend(a: seq<Constraint>, b: seq<Constraint>, c: char)
    ensures Group(a + b, c) == Group(a, c) + Group(b, c)
  {
    if |a| > 0 {
      assert (a + b)[1..] == a[1..] + b;
      GroupAppend(a[1..], b, c);
    } else {
      assert a + b == b;
    }
  }

  /** A letter no constraint mentions groups to nothing. */
  lemma {:induction false} GroupOfAbsent(ks: seq<Constraint>, c: char)
    requires forall j :: 0 <= j < |ks| ==> ks[j].c != c
    ensures Group(ks, c) == []
  {
    if |ks| > 0 {
      GroupOfAbsent(ks[1..], c);
    }
  }

  /** A letter some constraint mentions has a non-empty group. */
  lemma GroupOfPresent(ks: seq<Constraint>, c: char)
    requires exists i :: 0 <= i < |ks| && ks[i].c == c
    ensures |Group(ks, c)| > 0
  {
    var i :| 0 <= i < |ks| && ks[i].c == c;
    GroupMembers(ks, c);
    assert ks[i] in Group(ks, c);
  }

  /** A letter that only one constraint mentions groups to that constraint alone. */
  lemma {:induction false} GroupOfSingle(ks: seq<Constraint>, c: char, i: int)
    requires 0 <= i < |ks| && ks[i].c == c
    requires forall j :: 0 <= j < |ks| && j != i ==> ks[j].c != c
    ensures Group(ks, c) == [ks[i]]
  {
    if i > 0 {
      GroupOfSingle(ks[1..], c, i - 1);
    } else {
      GroupOfAbsent(ks[1..], c);
    }
  }

  /** `reduce(Constraint::merge)` over the rest of a group, from `acc`:
      stops at the first failing `merge`. */
  function ReduceFrom(acc: Constraint, rest: seq<Constraint>): Result<Constraint, MergeError>
    decreases |rest|
  {
    if |rest| == 0 then Ok(acc)
    else
      match Merge(acc, rest[0])
      case Err(e) => Err(e)
      case Ok(next) => ReduceFrom(next, rest[1..])
  }

  /** `reduce(Constraint::merge).orElseThrow()` on a non-empty group. */
  function Reduce(group: seq<Constraint>): Result<Constraint, MergeError>
    requires |group| > 0
  {
    ReduceFrom(group[0], group[1..])
  }

  /** A `Fixed` or `Unused` accumulator absorbs everything after it. */
  lemma {:induction false} ReduceFromSettled(acc: Constraint, rest: seq<Constraint>)
    requires !acc.Present?
    ensures ReduceFrom(acc, rest) == Ok(acc)
    decreases |rest|
  {
    if |rest| > 0 {
      ReduceFromSettled(acc, rest[1..]);
    }
  }

  /** The excluded positions of some constraint in `ks` include `x`. */
  ghost predicate ExcludedSomewhere(ks: seq<Constraint>, x: int)
  {
    exists i :: 0 <= i < |ks| && ks[i].Present? && x in ks[i].excluded
  }

  /** From a `Present`, a run of `Present`s folds into one `Present` under the
      accumulator's letter, holding the positions of all of them, strictly
      ascending once at least one merge happened. */
  lemma {:induction false} ReduceFromPresents(acc: Constraint, rest: seq<Constraint>)
    requires acc.Present?
    requires forall i :: 0 <= i < |rest| ==> rest[i].Present?
    ensures ReduceFrom(acc, rest).Ok?
    ensures ReduceFrom(acc, rest).value.Present?
    ensures ReduceFrom(acc, rest).value.c == acc.c
    ensures forall x :: x in ReduceFrom(acc, rest).value.excluded <==>
      x in acc.excluded || ExcludedSomewhere(rest, x)
    ensures |rest| > 0 ==> StrictlyAscending(ReduceFrom(acc, rest).value.excluded)
    decreases |rest|
  {
    if |rest| > 0 {
      MergePresentUnion(acc, rest[0]);
      var next := Merge(acc, rest[0]).value;
      ReduceFromPresents(next, rest[1..]);
      var r := ReduceFrom(acc, rest).value;
      assert r == ReduceFrom(next, rest[1..]).value;
      forall x
        ensures x in r.excluded <==> x in acc.excluded || ExcludedSomewhere(rest, x)
      {
        if ExcludedSomewhere(rest[1..], x) {
          var i :| 0 <= i < |rest[1..]| && rest[1..][i].Present? && x in rest[1..][i].excluded;
          assert rest[i + 1] == rest[1..][i];
        }
        if ExcludedSomewhere(rest, x) && x !in rest[0].excluded {
          var i :| 0 <= i < |rest| && rest[i].Present? && x in rest[i].excluded;
          assert i > 0;
          assert rest[1..][i - 1] == rest[i];
        }
      }
      if |rest| > 1 {
        assert StrictlyAscending(r.excluded);
      } else {
        assert r == next;
      }
    }
  }

  /** From a `Present`, a run of `Present`s ending at a non-`Present` folds
      into that `Fixed`, or fails on that `Unused`. */
  lemma {:induction false} ReduceFromFirstOther(acc: Constraint, rest: seq<Constraint>, j: int)
    requires acc.Present?
    requires 0 <= j < |rest| && !rest[j].Present?
    requires forall i :: 0 <= i < j ==> rest[i].Present?
    ensures rest[j].Fixed? ==> ReduceFrom(acc, rest) == Ok(rest[j])
    ensures rest[j].Unused? ==> ReduceFrom(acc, rest) == Err(UnexpectedValue(rest[j]))
    decreases j
  {
    if j == 0 {
      if rest[0].Fixed? {
        ReduceFromSettled(rest[0], rest[1..]);
      }
    } else {
      ReduceFromFirstOther(Merge(acc, rest[0]).value, rest[1..], j - 1);
    }
  }

  /** A group of `Present`s only folds into one `Present` on the group's
      letter, pooling all their positions. */
  lemma ReduceAllPresent(group: seq<Constraint>)
    requires |group| > 0
    requires forall i :: 0 <= i < |group| ==> group[i].Present?
    ensures Reduce(group).Ok? && Reduce(group).value.Present? && Reduce(group).value.c == group[0].c
    ensures forall x :: x in Reduce(group).value.excluded <==> ExcludedSomewhere(group, x)
    ensures |group| > 1 ==> StrictlyAscending(Reduce(group).value.excluded)
  {
    var head, rest := group[0], group[1..];
    assert forall i :: 0 <= i < |rest| ==> rest[i] == group[i + 1];
    ReduceFromPresents(head, rest);
    forall x
      ensures ExcludedSomewhere(group, x) <==> x in head.excluded || ExcludedSomewhere(rest, x)
    {
      if ExcludedSomewhere(group, x) && x !in head.excluded {
        var i :| 0 <= i < |group| && group[i].Present? && x in group[i].excluded;
        assert rest[i - 1] == group[i];
      }
      if ExcludedSomewhere(rest, x) {
        var i :| 0 <= i < |rest| && rest[i].Present? && x in rest[i].excluded;
        assert group[i + 1] == rest[i];
      }
    }
  }

  /** A group headed by `Present`s and then something else folds into that
      `Fixed`, or fails on that `Unused`. */
  lemma ReduceFirstOther(group: seq<Constraint>, j: int)
    requires 0 < j < |group| && !group[j].Present?
    requires forall i :: 0 <= i < j ==> group[i].Present?
    ensures Reduce(group) == (if group[j].Fixed? then Ok(group[j]) else Err(UnexpectedValue(group[j])))
  {
    var rest := group[1..];
    assert forall i :: 0 <= i < j - 1 ==> rest[i] == group[i + 1];
    assert rest[j - 1] == group[j];
    ReduceFromFirstOther(group[0], rest, j - 1);
  }

  /** Folding a group with `merge`: a group headed by `Fixed` or `Unused` gives
      its head; a group of `Present`s only gives one `Present` pooling all
      their positions; a group headed by `Present`s and then something else
      gives that `Fixed`, or fails on that `Unused`. */
  lemma ReduceCases(group: seq<Constraint>)
    requires |group| > 0
    ensures !group[0].Present? ==> Reduce(group) == Ok(group[0])
    ensures (forall i :: 0 <= i < |group| ==> group[i].Present?) ==>
      && Reduce(group).Ok? && Reduce(group).value.Present? && Reduce(group).value.c == group[0].c
      && (forall x :: x in Reduce(group).value.excluded <==> ExcludedSomewhere(group, x))
      && (|group| > 1 ==> StrictlyAscending(Reduce(group).value.excluded))
    ensures forall j :: 0 < j < |group| && !group[j].Present? && (forall i :: 0 <= i < j ==> group[i].Present?) ==>
      Reduce(group) == (if group[j].Fixed? then Ok(group[j]) else Err(UnexpectedValue(group[j])))
  {
    if !group[0].Present? {
      ReduceFromSettled(group[0], group[1..]);
    }
    if forall i :: 0 <= i < |group| ==> group[i].Present? {
      ReduceAllPresent(group);
    }
    forall j | 0 < j < |group| && !group[j].Present? && (forall i :: 0 <= i < j ==> group[i].Present?)
      ensures Reduce(group) == (if group[j].Fixed? then Ok(group[j]) else Err(UnexpectedValue(group[j])))
    {
      ReduceFirstOther(group, j);
    }
  }

  /** Every constraint in `ks` is about letter `c`. */
  predicate AllAbout(ks: seq<Constraint>, c: char)
  {
    forall i :: 0 <= i < |ks| ==> ks[i].c == c
  }

  /** Folding facts about one letter keeps the letter. */
  lemma {:induction false} ReduceFromKeepsLetter(acc: Constraint, rest: seq<Constraint>)
    requires AllAbout(rest, acc.c)
    ensures ReduceFrom(acc, rest).Ok? ==> ReduceFrom(acc, rest).value.c == acc.c
    decreases |rest|
  {
    if |rest| > 0 && Merge(acc, rest[0]).Ok? {
      ReduceFromKeepsLetter(Merge(acc, rest[0]).value, rest[1..]);
    }
  }

  /** Folding facts about one letter that mention only word positions keeps
      the letter, and a successful fold mentions only word positions. */
  lemma {:induction false} ReduceFromKeepsShape(acc: Constraint, rest: seq<Constraint>)
    requires AllAbout(rest, acc.c)
    requires WellFormed(acc) && AllWellFormed(rest)
    ensures ReduceFrom(acc, rest).Ok? ==> ReduceFrom(acc, rest).value.c == acc.c
    ensures ReduceFrom(acc, rest).Ok? ==> WellFormed(ReduceFrom(acc, rest).value)
    decreases |rest|
  {
    if |rest| > 0 && Merge(acc, rest[0]).Ok? {
      var next := Merge(acc, rest[0]).value;
      if acc.Present? && rest[0].Present? {
        MergePresentUnion(acc, rest[0]);
        forall i | 0 <= i < |next.excluded|
          ensures 0 <= next.excluded[i] < SIZE
        {
          var x := next.excluded[i];
          assert x in next.excluded;
          if x in acc.excluded {
            var t :| 0 <= t < |acc.excluded| && acc.excluded[t] == x;
          } else {
            var t :| 0 <= t < |rest[0].excluded| && rest[0].excluded[t] == x;
          }
        }
      }
      ReduceFromKeepsShape(next, rest[1..]);
    }
  }

  /** Folding facts about one letter that all agree with a secret never
      fails, and the outcome agrees too. */
  lemma {:induction false} ReduceFromAgrees(acc: Constraint, rest: seq<Constraint>, secret: Word)
    requires AllAbout(rest, acc.c)
    requires WellFormed(acc) && AllWellFormed(rest)
    requires Agrees(acc, secret) && AllAgree(rest, secret)
    ensures ReduceFrom(acc, rest).Ok?
    ensures Agrees(ReduceFrom(acc, rest).value, secret)
    decreases |rest|
  {
    if |rest| > 0 {
      MergeAgrees(acc, rest[0], secret);
      ReduceFromAgrees(Merge(acc, rest[0]).value, rest[1..], secret);
    }
  }

  /** Every key of a list of constraints has a non-empty group. */
  lemma KeysHaveGroups(ks: seq<Constraint>)
    ensures forall t :: 0 <= t < |Keys(ks)| ==> |Group(ks, Keys(ks)[t])| > 0
  {
    KeysMeaning(ks);
    forall t | 0 <= t < |Keys(ks)|
      ensures |Group(ks, Keys(ks)[t])| > 0
    {
      assert Keys(ks)[t] in Keys(ks);
      GroupOfPresent(ks, Keys(ks)[t]);
    }
  }

  /** One folded constraint per key, in key order; fails as soon as any key's
      group fails. */
  function MergeKeys(ks: seq<Constraint>, keys: seq<char>): (r: Result<seq<Constraint>, MergeError>)
    requires forall t :: 0 <= t < |keys| ==> |Group(ks, keys[t])| > 0
    ensures r.Ok? ==> |r.value| == |keys|
  {
    if |keys| == 0 then Ok([])
    else
      match Reduce(Group(ks, keys[0]))
      case Err(e) => Err(e)
      case Ok(k) =>
        match MergeKeys(ks, keys[1..])
        case Err(e) => Err(e)
        case Ok(rest) => Ok([k] + rest)
  }

  /** The keys' folds succeed exactly when `MergeKeys` does, and then it
      lists them in key order. */
  lemma {:induction false} MergeKeysMeaning(ks: seq<Constraint>, keys: seq<char>)
    requires forall t :: 0 <= t < |keys| ==> |Group(ks, keys[t])| > 0
    ensures MergeKeys(ks, keys).Ok? <==>
      forall t :: 0 <= t < |keys| ==> Reduce(Group(ks, keys[t])).Ok?
    ensures MergeKeys(ks, keys).Ok? ==> forall t :: 0 <= t < |keys| ==>
      Reduce(Group(ks, keys[t])) == Ok(MergeKeys(ks, keys).value[t])
    decreases |keys|
  {
    if |keys| > 0 {
      var rest := keys[1..];
      assert forall t :: 0 <= t < |rest| ==> rest[t] == keys[t + 1];
      MergeKeysMeaning(ks, rest);
      var head := Reduce(Group(ks, keys[0]));
      var tail := MergeKeys(ks, rest);
      assert forall t :: 1 <= t < |keys| ==> keys[t] == rest[t - 1];
      if head.Ok? && tail.Ok? {
        var r := MergeKeys(ks, keys).value;
        assert r == [head.value] + tail.value;
        assert forall t :: 1 <= t < |keys| ==> r[t] == tail.value[t - 1];
      } else if head.Ok? {
        var t :| 0 <= t < |rest| && !Reduce(Group(ks, rest[t])).Ok?;
        assert keys[t + 1] == rest[t];
      }
    }
  }

  /** `mergeConstraints(lists...)`: one constraint per distinct letter,
      ascending by letter, each the `merge` fold of that letter's constraints
      in encounter order; fails when any fold does. */
  function MergeConstraints(ks: seq<Constraint>): (r: Result<seq<Constraint>, MergeError>)
    ensures r.Ok? ==> |r.value| == |Keys(ks)|
  {
    KeysHaveGroups(ks);
    MergeKeys(ks, Keys(ks))
  }

  /** The merge succeeds exactly when every letter's fold does, and then
      holds, letter by letter in key order, the folded constraint. */
  lemma MergeConstraintsMeaning(ks: seq<Constraint>)
    ensures forall t :: 0 <= t < |Keys(ks)| ==> |Group(ks, Keys(ks)[t])| > 0
    ensures MergeConstraints(ks).Ok? <==>
      forall t :: 0 <= t < |Keys(ks)| ==> Reduce(Group(ks, Keys(ks)[t])).Ok?
    ensures MergeConstraints(ks).Ok? ==> forall t :: 0 <= t < |Keys(ks)| ==>
      Reduce(Group(ks, Keys(ks)[t])) == Ok(MergeConstraints(ks).value[t])
  {
    KeysHaveGroups(ks);
    MergeKeysMeaning(ks, Keys(ks));
  }

  /** A letter's fold, when it succeeds, is about that letter, and mentions
      only word positions when the constraints do. */
  lemma ReduceGroupKeepsShape(ks: seq<Constraint>, c: char)
    requires |Group(ks, c)| > 0
    ensures Reduce(Group(ks, c)).Ok? ==> Reduce(Group(ks, c)).value.c == c
    ensures AllWellFormed(ks) && Reduce(Group(ks, c)).Ok? ==> WellFormed(Reduce(Group(ks, c)).value)
  {
    var group := Group(ks, c);
    GroupMembers(ks, c);
    if AllWellFormed(ks) {
      forall i | 0 <= i < |group|
        ensures WellFormed(group[i])
      {
        assert group[i] in ks;
      }
      ReduceFromKeepsShape(group[0], group[1..]);
    } else {
      ReduceFromKeepsLetter(group[0], group[1..]);
    }
  }

  /** A letter's fold over constraints that agree with a secret succeeds and agrees too. */
  lemma ReduceGroupAgrees(ks: seq<Constraint>, c: char, secret: Word)
    requires |Group(ks, c)| > 0
    requires AllWellFormed(ks) && AllAgree(ks, secret)
    ensures Reduce(Group(ks, c)).Ok?
    ensures Agrees(Reduce(Group(ks, c)).value, secret)
  {
    var group := Group(ks, c);
    GroupMembers(ks, c);
    forall i | 0 <= i < |group|
      ensures WellFormed(group[i]) && Agrees(group[i], secret)
    {
      assert group[i] in ks;
    }
    ReduceFromAgrees(group[0], group[1..], secret);
  }

  /** A successful merge lists one constraint per constrained letter, its
      letters being exactly the keys (so strictly ascending), and mentions
      only word positions when its input does. */
  lemma MergeConstraintsShape(ks: seq<Constraint>)
    requires MergeConstraints(ks).Ok?
    ensures LettersOf(MergeConstraints(ks).value) == Keys(ks)
    ensures forall i, j :: 0 <= i < j < |MergeConstraints(ks).value| ==>
      MergeConstraints(ks).value[i].c < MergeConstraints(ks).value[j].c
    ensures AllWellFormed(ks) ==> AllWellFormed(MergeConstraints(ks).value)
  {
    var r := MergeConstraints(ks).value;
    var keys := Keys(ks);
    KeysMeaning(ks);
    MergeConstraintsMeaning(ks);
    forall t | 0 <= t < |keys|
      ensures r[t].c == keys[t]
      ensures AllWellFormed(ks) ==> WellFormed(r[t])
    {
      ReduceGroupKeepsShape(ks, keys[t]);
    }
  }

  /** Merging constraints that mention only word positions gives constraints
      that do too. */
  lemma MergeConstraintsWellFormed(ks: seq<Constraint>)
    requires AllWellFormed(ks)
    ensures MergeConstraints(ks).Ok? ==> AllWellFormed(MergeConstraints(ks).value)
  {
    if MergeConstraints(ks).Ok? {
      MergeConstraintsShape(ks);
    }
  }

  /** Merging constraints that mention only word positions and agree with one
      secret never fails, and the merged ones do likewise. */
  lemma MergeConstraintsAgree(ks: seq<Constraint>, secret: Word)
    requires AllWellFormed(ks) && AllAgree(ks, secret)
    ensures MergeConstraints(ks).Ok?
    ensures AllWellFormed(MergeConstraints(ks).value)
    ensures AllAgree(MergeConstraints(ks).value, secret)
  {
    var keys := Keys(ks);
    MergeConstraintsMeaning(ks);
    forall t | 0 <= t < |keys|
      ensures Reduce(Group(ks, keys[t])).Ok? && Agrees(Reduce(Group(ks, keys[t])).value, secret)
    {
      ReduceGroupAgrees(ks, keys[t], secret);
    }
    MergeConstraintsShape(ks);
  }

  // ---------------------------------------------------------------------------
  // Playing: findConstraints, constraintsGiven, stillViable, guessed, tryWord

  /** `findConstraints(guess, secret)`: the fact each letter of the guess
      earns against the secret, in guess order. */
  function FindConstraints(guess: Word, secret: Word): (r: seq<Constraint>)
    ensures |r| == SIZE
    ensures forall i :: 0 <= i < SIZE ==> r[i].c == guess[i]
    ensures AllWellFormed(r) && AllAgree(r, secret)
  {
    var ics := Letters.IndexedChars(guess);
    var r := seq(SIZE, i requires 0 <= i < SIZE => Derive(secret, ics[i]));
    assert forall i :: 0 <= i < SIZE ==> WellFormed(r[i]) && Agrees(r[i], secret) by {
      forall i | 0 <= i < SIZE
        ensures WellFormed(r[i]) && Agrees(r[i], secret)
      {
        DerivedAgrees(secret, ics[i]);
      }
    }
    r
  }

  /** `constraintsGiven(guess)`: the known facts merged with the guess's. */
  function ConstraintsGiven(g: Game, guess: Word): Result<seq<Constraint>, MergeError>
  {
    MergeConstraints(g.constraints + FindConstraints(guess, g.word))
  }

  /** The known constraints and the guess's facts all mention only word
      positions, and so does whatever they merge into. */
  lemma ConstraintsGivenWellFormed(g: Game, guess: Word)
    requires AllWellFormed(g.constraints)
    ensures ConstraintsGiven(g, guess).Ok? ==> AllWellFormed(ConstraintsGiven(g, guess).value)
  {
    var find := FindConstraints(guess, g.word);
    AppendWellFormed(g.constraints, find);
    MergeConstraintsWellFormed(g.constraints + find);
  }

  /** `constraints.stream().noneMatch(constraint -> constraint.excludes(word))`. */
  function Admits(cs: seq<Constraint>, w: Word): (r: bool)
    requires AllWellFormed(cs)
    ensures r <==> forall i :: 0 <= i < |cs| ==> !Excludes(cs[i], w)
  {
    if |cs| == 0 then true
    else !Excludes(cs[0], w) && Admits(cs[1..], w)
  }

  /** `stillViable(constraints)`: the candidates, in order, that no
      constraint rules out. */
  function StillViable(candidates: seq<Word>, cs: seq<Constraint>): (r: seq<Word>)
    requires AllWellFormed(cs)
    ensures Seqs.IsSubseq(r, candidates)
    ensures |r| <= |candidates|
  {
    if |candidates| == 0 then []
    else
      var init := candidates[..|candidates| - 1];
      var w := candidates[|candidates| - 1];
      var kept := StillViable(init, cs);
      assert candidates == init + [w];
      Seqs.SubseqAppendBoth(kept, init, w);
      Seqs.SubseqMembers(kept, init);
      if Admits(cs, w) then kept + [w] else kept
  }

  /** The filter's step: a trailing candidate is kept, at the end, exactly
      when no constraint rules it out. */
  lemma StillViableSnoc(xs: seq<Word>, y: Word, cs: seq<Constraint>)
    requires AllWellFormed(cs)
    ensures StillViable(xs + [y], cs) == StillViable(xs, cs) + (if Admits(cs, y) then [y] else [])
  {
    assert (xs + [y])[..|xs + [y]| - 1] == xs;
  }

  /** A word survives the filter exactly when it was a candidate and no
      constraint rules it out. */
  lemma {:induction false} StillViableMeaning(candidates: seq<Word>, cs: seq<Constraint>)
    requires AllWellFormed(cs)
    ensures forall w :: w in StillViable(candidates, cs) <==> w in candidates && Admits(cs, w)
    decreases |candidates|
  {
    if |candidates| > 0 {
      var init := candidates[..|candidates| - 1];
      StillViableMeaning(init, cs);
      assert candidates == init + [candidates[|candidates| - 1]];
    }
  }

  /** `guessed(guess, newConstraints)`: the new facts replace the old ones,
      the candidates are filtered by them, the guess is recorded and the
      secret stays. */
  function Guessed(g: Game, guess: Word, newConstraints: seq<Constraint>): (r: Game)
    requires AllWellFormed(newConstraints)
    ensures r.word == g.word
    ensures r.constraints == newConstraints
    ensures r.guesses == g.guesses + [guess]
    ensures r.candidates == StillViable(g.candidates, newConstraints)
    ensures Seqs.IsSubseq(r.candidates, g.candidates)
  {
    Game(g.word, StillViable(g.candidates, newConstraints), newConstraints, g.guesses + [guess])
  }

  /** The known facts mention only word positions and agree with the secret. */
  predicate Valid(g: Game)
  {
    AllWellFormed(g.constraints) && AllAgree(g.constraints, g.word)
  }

  /** `tryWord(guess)`: merges the guess's facts into the known ones and
      filters; fails when the merge does. */
  function TryWord(g: Game, guess: Word): (r: Result<Game, MergeError>)
    requires AllWellFormed(g.constraints)
    ensures r.Ok? ==> r.value.word == g.word && r.value.guesses == g.guesses + [guess]
    ensures r.Ok? ==> AllWellFormed(r.value.constraints)
    ensures r.Ok? ==> |r.value.candidates| <= |g.candidates|
  {
    match ConstraintsGiven(g, guess)
    case Err(e) => Err(e)
    case Ok(cs) =>
      ConstraintsGivenWellFormed(g, guess);
      Ok(Guessed(g, guess, cs))
  }

  /** In a valid game `tryWord` never fails, keeps the game valid, and leaves
      one constraint per letter known so far or guessed now. */
  lemma TryWordKeepsValid(g: Game, guess: Word)
    requires Valid(g)
    ensures TryWord(g, guess).Ok?
    ensures Valid(TryWord(g, guess).value)
  {
    var ks := g.constraints + FindConstraints(guess, g.word);
    MergeConstraintsAgree(ks, g.word);
  }

  /** After `tryWord`, a word is a candidate exactly when it was one and no
      merged constraint rules it out. */
  lemma TryWordMeaning(g: Game, guess: Word)
    requires AllWellFormed(g.constraints)
    requires TryWord(g, guess).Ok?
    ensures ConstraintsGiven(g, guess).Ok?
    ensures TryWord(g, guess).value.constraints == ConstraintsGiven(g, guess).value
    ensures TryWord(g, guess).value.candidates == StillViable(g.candidates, ConstraintsGiven(g, guess).value)
    ensures forall w :: w in TryWord(g, guess).value.candidates <==>
      w in g.candidates && Admits(ConstraintsGiven(g, guess).value, w)
  {
    var ks := g.constraints + FindConstraints(guess, g.word);
    MergeConstraintsShape(ks);
    StillViableMeaning(g.candidates, ConstraintsGiven(g, guess).value);
  }

  /** Each position's fact is the one its letter earns against the secret. */
  lemma FindConstraintsAt(guess: Word, secret: Word, i: int)
    requires 0 <= i < SIZE
    ensures FindConstraints(guess, secret)[i] == Derive(secret, Letters.IndexedChar(i, guess[i]))
  {
  }

  /** A letter the guess has at one position only: merging the guess's facts
      alone keeps that position's fact as it is. */
  lemma MergeKeepsSingleFact(guess: Word, secret: Word, i: int)
    requires 0 <= i < SIZE
    requires forall j :: 0 <= j < SIZE && j != i ==> guess[j] != guess[i]
    ensures MergeConstraints(FindConstraints(guess, secret)).Ok?
    ensures FindConstraints(guess, secret)[i] in MergeConstraints(FindConstraints(guess, secret)).value
  {
    var ks := FindConstraints(guess, secret);
    var c := guess[i];
    MergeConstraintsAgree(ks, secret);
    KeysMeaning(ks);
    assert c in Keys(ks) by {
      assert ks[i].c == c;
    }
    var t :| 0 <= t < |Keys(ks)| && Keys(ks)[t] == c;
    MergeConstraintsMeaning(ks);
    GroupOfSingle(ks, c, i);
    assert MergeConstraints(ks).value[t] == ks[i];
  }

  /** Guessing a letter where the secret has it, when the secret also has it
      earlier and the guess has it nowhere else, removes the secret from the
      candidates of a fresh game: the letter's only fact is the `Present` the
      first-occurrence rule gives, and it excludes the secret. */
  lemma TryWordCanLoseSecret(secret: Word, candidates: seq<Word>, guess: Word, i: int)
    requires 0 <= i < SIZE
    requires secret[i] == guess[i] && !Letters.FirstAt(secret, guess[i], i)
    requires forall j :: 0 <= j < SIZE && j != i ==> guess[j] != guess[i]
    ensures TryWord(NewGame(secret, candidates), guess).Ok?
    ensures secret !in TryWord(NewGame(secret, candidates), guess).value.candidates
  {
    var g := NewGame(secret, candidates);
    var find := FindConstraints(guess, secret);
    assert g.constraints + find == find;
    MergeKeepsSingleFact(guess, secret, i);
    TryWordMeaning(g, guess);
    var cs := ConstraintsGiven(g, guess).value;
    FindConstraintsAt(guess, secret, i);
    DerivedExcludesSecret(secret, Letters.IndexedChar(i, guess[i]));
    var t :| 0 <= t < |cs| && cs[t] == find[i];
    assert !Admits(cs, secret);
  }

  /** When the secret is the only candidate, such a guess leaves none. */
  lemma TryWordLosesLoneSecret(secret: Word, guess: Word, i: int)
    requires 0 <= i < SIZE
    requires secret[i] == guess[i] && !Letters.FirstAt(secret, guess[i], i)
    requires forall j :: 0 <= j < SIZE && j != i ==> guess[j] != guess[i]
    ensures TryWord(NewGame(secret, [secret]), guess).Ok?
    ensures TryWord(NewGame(secret, [secret]), guess).value.candidates == []
  {
    TryWordCanLoseSecret(secret, [secret], guess, i);
    var left := TryWord(NewGame(secret, [secret]), guess).value.candidates;
    Seqs.SubseqMembers(left, [secret]);
  }

  /** Secret ABACK among the candidates [ABACK], guess XXAXX: the old game is
      left with no candidates at all. */
  lemma LosesSecretExample(secret: Word, guess: Word)
    requires secret == "ABACK" && guess == "XXAXX"
    ensures TryWord(NewGame(secret, [secret]), guess).Ok?
    ensures TryWord(NewGame(secret, [secret]), guess).value.candidates == []
  {
    assert secret[0] == 'A' && secret[2] == 'A' && guess[2] == 'A';
    assert forall j :: 0 <= j < SIZE && j != 2 ==> guess[j] == 'X';
    TryWordLosesLoneSecret(secret, guess, 2);
  }

  // ---------------------------------------------------------------------------
  // Scoring: elimination, hotCandidates, hotCandidate, done

  /** `elimination(word)`: scores a guess by how many candidates it would
      leave standing against the real secret. */
  function Elimination(g: Game, guess: Word): (r: Result<Ranking.WordElim<Word>, MergeError>)
    requires AllWellFormed(g.constraints)
    ensures r.Ok? ==> r.value.word == guess && 0 <= r.value.eliminated <= |g.candidates|
  {
    match ConstraintsGiven(g, guess)
    case Err(e) => Err(e)
    case Ok(cs) =>
      ConstraintsGivenWellFormed(g, guess);
      Ok(Ranking.WordElim(guess, |StillViable(g.candidates, cs)|))
  }

  /** The score is the number of candidates `tryWord` with that guess would
      leave, not the number it would remove. */
  lemma EliminationCountsRemaining(g: Game, guess: Word)
    requires AllWellFormed(g.constraints)
    ensures Elimination(g, guess).Ok? <==> TryWord(g, guess).Ok?
    ensures Elimination(g, guess).Ok? ==>
      Elimination(g, guess).value.eliminated == |TryWord(g, guess).value.candidates|
  {
  }

  /** `this::elimination`, as a function value. */
  function Scorer(g: Game): Word --> Result<Ranking.WordElim<Word>, MergeError>
  {
    (w: Word) requires AllWellFormed(g.constraints) => Elimination(g, w)
  }

  /** `elimination` of each word, in order; fails at the first failure. */
  function Eliminations(g: Game, ws: seq<Word>): (r: Result<seq<Ranking.WordElim<Word>>, MergeError>)
    requires AllWellFormed(g.constraints)
    ensures r.Ok? ==> |r.value| == |ws|
  {
    MapResult(Scorer(g), ws)
  }

  /** On success, entry `i` is the score of word `i`. */
  lemma EliminationsMeaning(g: Game, ws: seq<Word>)
    requires AllWellFormed(g.constraints)
    ensures Eliminations(g, ws).Ok? ==> forall i :: 0 <= i < |ws| ==>
      Elimination(g, ws[i]).Ok? && Eliminations(g, ws).value[i] == Elimination(g, ws[i]).value
  {
    MapResultMeaning(Scorer(g), ws);
  }

  /** In a valid game every score can be computed. */
  lemma EliminationsSucceed(g: Game, ws: seq<Word>)
    requires Valid(g)
    ensures Eliminations(g, ws).Ok?
  {
    forall i | 0 <= i < |ws|
      ensures Scorer(g)(ws[i]).Ok?
    {
      TryWordKeepsValid(g, ws[i]);
      EliminationCountsRemaining(g, ws[i]);
    }
    MapResultSucceeds(Scorer(g), ws);
  }

  /** `hotCandidates()`: every candidate with its score, highest first, ties
      in candidate order. */
  function HotCandidates(g: Game): (r: Result<seq<Ranking.WordElim<Word>>, MergeError>)
    requires AllWellFormed(g.constraints)
    ensures r.Ok? <==> Eliminations(g, g.candidates).Ok?
    ensures r.Ok? ==> |r.value| == |g.candidates|
    ensures r.Ok? ==> multiset(r.value) == multiset(Eliminations(g, g.candidates).value)
    ensures r.Ok? ==> forall i, j :: 0 <= i < j < |r.value| ==> r.value[i].eliminated >= r.value[j].eliminated
  {
    match Eliminations(g, g.candidates)
    case Err(e) => Err(e)
    case Ok(es) => Ok(Ranking.Rank(es))
  }

  /** `sorted` is stable: entries with equal scores keep candidate order. */
  lemma HotCandidatesStable(g: Game, k: int)
    requires AllWellFormed(g.constraints)
    requires HotCandidates(g).Ok?
    ensures Ranking.WithScore(HotCandidates(g).value, k)
      == Ranking.WithScore(Eliminations(g, g.candidates).value, k)
  {
    Ranking.RankIsStable(Eliminations(g, g.candidates).value, k);
  }

  /** `hotCandidate()`: nothing when there are no candidates, otherwise one
      of the top-scoring entries, the `pick`-th of them (wrapping around)
      standing in for the random choice. */
  function HotCandidate(g: Game, pick: nat): (r: Result<Option<Ranking.WordElim<Word>>, MergeError>)
    requires AllWellFormed(g.constraints)
    ensures r.Ok? <==> HotCandidates(g).Ok?
    ensures r.Ok? ==> (r.value.None? <==> |g.candidates| == 0)
  {
    match HotCandidates(g)
    case Err(e) => Err(e)
    case Ok(hotties) =>
      if |hotties| == 0 then Ok(None)
      else
        var hottest := Ranking.Hottest(hotties);
        Ok(Some(hottest[pick % |hottest|]))
  }

  /** The entry `hotCandidate` picks is one of the ranked entries, and no
      entry scores higher. */
  lemma HotCandidateIsHottest(g: Game, pick: nat)
    requires AllWellFormed(g.constraints)
    requires HotCandidate(g, pick).Ok? && HotCandidate(g, pick).value.Some?
    ensures HotCandidate(g, pick).value.value in HotCandidates(g).value
    ensures forall i :: 0 <= i < |HotCandidates(g).value| ==>
      HotCandidates(g).value[i].eliminated <= HotCandidate(g, pick).value.value.eliminated
  {
    var hotties := HotCandidates(g).value;
    Seqs.SubseqMembers(Ranking.Hottest(hotties), hotties);
  }

  /** In a valid game `hotCandidate` always answers. */
  lemma HotCandidateSucceeds(g: Game, pick: nat)
    requires Valid(g)
    ensures HotCandidate(g, pick).Ok?
  {
    EliminationsSucceed(g, g.candidates);
  }

  /** `done()`: some guess was made and the last one is the secret. */
  function Done(g: Game): bool
  {
    |g.guesses| > 0 && g.guesses[|g.guesses| - 1] == g.word
  }

  /** Guessing the secret in a valid game finishes it. */
  lemma DoneWhenSolved(g: Game)
    requires Valid(g)
    ensures TryWord(g, g.word).Ok?
    ensures Done(TryWord(g, g.word).value)
  {
    TryWordKeepsValid(g, g.word);
  }
}

=== FILE: legacy_words.dfy ===
/** The older revision's `Word` (a record over `char[]`): the length-checked
    factory `of` and the two letter searches its constraints rely on. Words the
    game works with are five letters long, the shape `of` guarantees. */
module LegacyWords {
  import opened Wrappers
  import Words

  /** `Word.of(string)`: refuses anything but five letters. */
  function Of(letters: string): (r: Result<Words.Word, Words.WordError>)
    ensures r.Ok? <==> |letters| == Words.SIZE
    ensures r.Ok? ==> r.value == letters
    ensures r.Err? ==> r.error == Words.NotFiveLetters(letters)
  {
    Words.MakeWord(letters)
  }

  /** `contains(c)`: the `for` loop over the letters that stops at the first
      match. It decides what `Letters.AnyMatch` (the stream `anyMatch`) does;
      the old `Present.excludes` runs both tests side by side, and
      `LegacyConstraints.PresentLastTestRedundant` relates them, so each is
      kept as its own source construct. */
  function Contains(letters: seq<char>, c: char): (r: bool)
    ensures r <==> exists i :: 0 <= i < |letters| && letters[i] == c
  {
    if |letters| == 0 then false
    else letters[0] == c || Contains(letters[1..], c)
  }

  /** Every listed position indexes into the letters; `letters[exc]` throws otherwise. */
  predicate InRange(letters: seq<char>, positions: seq<int>)
  {
    forall i :: 0 <= i < |positions| ==> 0 <= positions[i] < |letters|
  }

  /** `contains(c, excluded)`: some listed position holds `c`. */
  function ContainsAt(letters: seq<char>, c: char, excluded: seq<int>): (r: bool)
    requires InRange(letters, excluded)
    ensures r <==> exists i :: 0 <= i < |excluded| && letters[excluded[i]] == c
  {
    if |excluded| == 0 then false
    else letters[excluded[0]] == c || ContainsAt(letters, c, excluded[1..])
  }
}

=== FILE: letters.dfy ===
/** Letter-level primitives both revisions of `Word` are built from:
    `String.indexOf(char)` / the first-match scan, and the `(index, letter)`
    stream `indexedChars()` with its projection `chars()`. */
module Letters {

  /** The `(index, c)` pair produced while scanning a word. */
  datatype IndexedChar = IndexedChar(index: int, c: char)

  /** First index at or after `from` holding `c`, or -1 when there is none. */
  function IndexFrom(s: seq<char>, c: char, from: nat): (r: int)
    requires from <= |s|
    ensures r == -1 || from <= r < |s|
    ensures r >= 0 ==> s[r] == c
    ensures forall k :: from <= k < |s| && (r == -1 || k < r) ==> s[k] != c
    decreases |s| - from
  {
    if from == |s| then -1
    else if s[from] == c then from
    else IndexFrom(s, c, from + 1)
  }

  /** `String.indexOf(char)`: the first index holding `c`, or -1. */
  function IndexOf(s: seq<char>, c: char): (r: int)
    ensures r == -1 <==> (forall k :: 0 <= k < |s| ==> s[k] != c)
    ensures r >= 0 ==> r < |s| && s[r] == c && (forall k :: 0 <= k < r ==> s[k] != c)
  {
    IndexFrom(s, c, 0)
  }

  /** `IntStream.range(from, |s|).mapToObj(i -> new IndexedChar(i, s[i]))`. */
  function IndexedFrom(s: seq<char>, from: nat): (r: seq<IndexedChar>)
    requires from <= |s|
    ensures |r| == |s| - from
    ensures forall i :: 0 <= i < |r| ==> r[i] == IndexedChar(from + i, s[from + i])
    decreases |s| - from
  {
    if from == |s| then [] else [IndexedChar(from, s[from])] + IndexedFrom(s, from + 1)
  }

  /** `indexedChars()`: the pairs `(i, s[i])` for every index, in increasing order. */
  function IndexedChars(s: seq<char>): (r: seq<IndexedChar>)
    ensures |r| == |s|
    ensures forall i :: 0 <= i < |s| ==> r[i].index == i && r[i].c == s[i]
  {
    IndexedFrom(s, 0)
  }

  /** `chars()`: the letters of an indexed-char stream. */
  function Chars(ics: seq<IndexedChar>): (r: seq<char>)
    ensures |r| == |ics|
    ensures forall i :: 0 <= i < |ics| ==> r[i] == ics[i].c
  {
    seq(|ics|, i requires 0 <= i < |ics| => ics[i].c)
  }

  /** `chars()` of `indexedChars()` gives back the word itself. */
  lemma CharsOfIndexedChars(s: seq<char>)
    ensures Chars(IndexedChars(s)) == s
  {
  }

  /** `anyMatch(ch -> ch == c)` over a stream of letters. */
  function AnyMatch(chars: seq<char>, c: char): (r: bool)
    ensures r <==> exists i :: 0 <= i < |chars| && chars[i] == c
  {
    if |chars| == 0 then false else chars[0] == c || AnyMatch(chars[1..], c)
  }

  /** `c` first occurs in `s` at index `j`. */
  ghost predicate FirstAt(s: seq<char>, c: char, j: int)
  {
    0 <= j < |s| && s[j] == c && forall k :: 0 <= k < j ==> s[k] != c
  }
}

=== FILE: ranking.dfy ===
/** `WordElim` and the ranking of guesses by score, shared by both revisions:
    the stable descending sort `sorted(BY_ELIMINATION.reversed())`, the
    maximum score, and the tier of entries that reach it. */
module Ranking {
  import Sorting
  import Seqs

  /** A guess paired with its score. */
  datatype WordElim<W> = WordElim(word: W, eliminated: int)

  /** `BY_ELIMINATION.reversed()` as a "comes no later than" relation. */
  function MoreEliminating<W>(): (WordElim<W>, WordElim<W>) -> bool
  {
    (a: WordElim<W>, b: WordElim<W>) => a.eliminated >= b.eliminated
  }

  lemma MoreEliminatingIsTotalPreorder<W(!new)>()
    ensures Sorting.TotalPreorder(MoreEliminating<W>())
  {
  }

  /** The stable sort by descending score. */
  function Rank<W(!new)>(s: seq<WordElim<W>>): (r: seq<WordElim<W>>)
    ensures multiset(r) == multiset(s)
    ensures |r| == |s|
    ensures forall i :: 0 <= i < |r| ==> r[i] in s
    ensures forall i, j :: 0 <= i < j < |r| ==> r[i].eliminated >= r[j].eliminated
  {
    MoreEliminatingIsTotalPreorder<W>();
    var r := Sorting.Sort(s, MoreEliminating());
    assert forall i :: 0 <= i < |r| ==> r[i] in s by {
      forall i | 0 <= i < |r|
        ensures r[i] in s
      {
        assert r[i] in multiset(r);
      }
    }
    r
  }

  /** The entries scoring exactly `k`, in their order in `s`. */
  function WithScore<W>(s: seq<WordElim<W>>, k: int): (r: seq<WordElim<W>>)
    ensures forall i :: 0 <= i < |r| ==> r[i].eliminated == k
    ensures forall i :: 0 <= i < |s| && s[i].eliminated == k ==> s[i] in r
    ensures Seqs.IsSubseq(r, s)
    decreases |s|
  {
    if |s| == 0 then []
    else
      var init := s[..|s| - 1];
      var last := s[|s| - 1];
      var rest := WithScore(init, k);
      assert s == init + [last];
      Seqs.SubseqAppendBoth(rest, init, last);
      if last.eliminated == k then rest + [last] else rest
  }

  lemma {:induction false} WithScoreAppend<W>(a: seq<WordElim<W>>, b: seq<WordElim<W>>, k: int)
    ensures WithScore(a + b, k) == WithScore(a, k) + WithScore(b, k)
    decreases |b|
  {
    if |b| == 0 {
      assert a + b == a;
    } else {
      var b' := b[..|b| - 1];
      assert (a + b)[..|a + b| - 1] == a + b';
      WithScoreAppend(a, b', k);
    }
  }

  /** Filtering by score keeps every copy of an entry with that score and no
      copy of any other. */
  lemma {:induction false} WithScoreCounts<W>(s: seq<WordElim<W>>, k: int)
    ensures forall e :: multiset(WithScore(s, k))[e] == if e.eliminated == k then multiset(s)[e] else 0
    decreases |s|
  {
    if |s| > 0 {
      var init := s[..|s| - 1];
      var last := s[|s| - 1];
      WithScoreCounts(init, k);
      assert s == init + [last];
      assert multiset(s) == multiset(init) + multiset{last};
    }
  }

  /** Inserting `x` in front of its ties keeps every score class in order. */
  lemma {:induction false} InsertKeepsScoreOrder<W(!new)>(x: WordElim<W>, t: seq<WordElim<W>>, k: int)
    requires Sorting.TotalPreorder(MoreEliminating<W>())
    requires Sorting.SortedBy(t, MoreEliminating())
    ensures WithScore(Sorting.Insert(x, t, MoreEliminating()), k) == WithScore([x], k) + WithScore(t, k)
    decreases |t|
  {
    var le := MoreEliminating<W>();
    if |t| == 0 || le(x, t[0]) {
      WithScoreAppend([x], t, k);
    } else {
      var rest := Sorting.Insert(x, t[1..], le);
      assert Sorting.Insert(x, t, le) == [t[0]] + rest;
      InsertKeepsScoreOrder(x, t[1..], k);
      WithScoreAppend([t[0]], rest, k);
      WithScoreAppend([t[0]], t[1..], k);
      assert t == [t[0]] + t[1..];
      assert t[0].eliminated > x.eliminated;
      assert WithScore([x], k) == [] || WithScore([t[0]], k) == [];
    }
  }

  /** The sort is stable: the entries of each score keep their input order. */
  lemma {:induction false} RankIsStable<W(!new)>(s: seq<WordElim<W>>, k: int)
    ensures WithScore(Rank(s), k) == WithScore(s, k)
    decreases |s|
  {
    MoreEliminatingIsTotalPreorder<W>();
    var le := MoreEliminating<W>();
    if |s| > 0 {
      RankIsStable(s[1..], k);
      assert Rank(s[1..]) == Sorting.Sort(s[1..], le);
      InsertKeepsScoreOrder(s[0], Sorting.Sort(s[1..], le), k);
      assert s == [s[0]] + s[1..];
      WithScoreAppend([s[0]], s[1..], k);
    }
  }

  /** `maxEliminations`: `mapToInt(eliminated).max().orElse(0)`. */
  function MaxElimination<W>(s: seq<WordElim<W>>): (m: int)
    ensures |s| == 0 ==> m == 0
    ensures forall i :: 0 <= i < |s| ==> s[i].eliminated <= m
    ensures |s| > 0 ==> exists i :: 0 <= i < |s| && s[i].eliminated == m
  {
    if |s| == 0 then 0
    else if |s| == 1 then s[0].eliminated
    else
      var m := MaxElimination(s[1..]);
      if s[0].eliminated >= m then s[0].eliminated else m
  }

  /** An entry of `s` that no entry of `s` outscores keeps that standing in
      any permutation of `s`: it is there, with the maximum score. */
  lemma TopOfPermutation<W>(s: seq<WordElim<W>>, h: seq<WordElim<W>>, e: WordElim<W>)
    requires multiset(h) == multiset(s)
    requires e in s
    requires forall i :: 0 <= i < |s| ==> s[i].eliminated <= e.eliminated
    ensures e in h && e.eliminated == MaxElimination(h)
  {
    assert e in multiset(h);
    var i :| 0 <= i < |h| && h[i].eliminated == MaxElimination(h);
    assert h[i] in multiset(s);
  }

  /** `hottestOf`: the entries whose score is the maximum, in input order. */
  function Hottest<W(!new)>(s: seq<WordElim<W>>): (r: seq<WordElim<W>>)
    ensures Seqs.IsSubseq(r, s)
    ensures forall i, j :: 0 <= i < |r| && 0 <= j < |s| ==> s[j].eliminated <= r[i].eliminated
    ensures forall i :: 0 <= i < |s| ==> (s[i] in r <==> s[i].eliminated == MaxElimination(s))
    ensures forall e :: multiset(r)[e] == if e.eliminated == MaxElimination(s) then multiset(s)[e] else 0
    ensures |r| > 0 <==> |s| > 0
  {
    var r := WithScore(s, MaxElimination(s));
    Seqs.SubseqMembers(r, s);
    WithScoreCounts(s, MaxElimination(s));
    r
  }
}

=== FILE: seqs.dfy ===
/** Order-preserving sequence helpers shared by both revisions of the solver:
    Java's `Stream.distinct()` and the "filter keeps order" notion of a subsequence. */
module Seqs {

  /** No element occurs twice. */
  predicate NoDup<T(==)>(s: seq<T>)
  {
    forall i, j :: 0 <= i < j < |s| ==> s[i] != s[j]
  }

  /** `a` can be obtained from `b` by deleting elements: the order-preserving
      relation between a filtered list and its source. */
  predicate IsSubseq<T(==)>(a: seq<T>, b: seq<T>)
    decreases |b|
  {
    if |a| == 0 then true
    else if |b| == 0 then false
    else
      || (a[|a| - 1] == b[|b| - 1] && IsSubseq(a[..|a| - 1], b[..|b| - 1]))
      || IsSubseq(a, b[..|b| - 1])
  }

  lemma {:induction false} SubseqMembers<T>(a: seq<T>, b: seq<T>)
    requires IsSubseq(a, b)
    ensures forall x :: x in a ==> x in b
    ensures |a| <= |b|
    decreases |b|
  {
    if |a| == 0 {
    } else {
      assert b == b[..|b| - 1] + [b[|b| - 1]];
      if a[|a| - 1] == b[|b| - 1] && IsSubseq(a[..|a| - 1], b[..|b| - 1]) {
        SubseqMembers(a[..|a| - 1], b[..|b| - 1]);
        assert a == a[..|a| - 1] + [a[|a| - 1]];
      } else {
        SubseqMembers(a, b[..|b| - 1]);
      }
    }
  }

  /** Appending one element and then a tail is appending the tail with that element in front. */
  lemma SnocThenAppend<T>(a: seq<T>, x: T, rest: seq<T>)
    ensures (a + [x]) + rest == a + ([x] + rest)
  {
  }

  /** Appending the same element to both sides, or only to the longer side,
      keeps a subsequence a subsequence. */
  lemma SubseqAppendBoth<T>(a: seq<T>, b: seq<T>, x: T)
    requires IsSubseq(a, b)
    ensures IsSubseq(a + [x], b + [x]) && IsSubseq(a, b + [x])
  {
    assert (a + [x])[..|a + [x]| - 1] == a;
    assert (b + [x])[..|b + [x]| - 1] == b;
  }

  lemma {:induction false} SubseqRefl<T>(a: seq<T>)
    ensures IsSubseq(a, a)
    decreases |a|
  {
    if |a| > 0 {
      SubseqRefl(a[..|a| - 1]);
    }
  }

  /** Java's `distinct()` on an ordered stream: the first occurrence of each
      element is kept, in encounter order. */
  function Distinct<T(==)>(s: seq<T>): (r: seq<T>)
    ensures NoDup(r)
    ensures forall i :: 0 <= i < |s| ==> s[i] in r
    ensures IsSubseq(r, s)
    decreases |s|
  {
    if |s| == 0 then []
    else
      var init := s[..|s| - 1];
      var d := Distinct(init);
      var x := s[|s| - 1];
      assert s == init + [x];
      SubseqAppendBoth(d, init, x);
      if x in d then d else d + [x]
  }

  /** One more element is kept exactly when it was not seen before, and then
      goes last: earlier occurrences win, and encounter order is kept. */
  lemma DistinctSnoc<T>(s: seq<T>, x: T)
    ensures Distinct(s + [x]) == if x in Distinct(s) then Distinct(s) else Distinct(s) + [x]
  {
    assert (s + [x])[..|s + [x]| - 1] == s;
  }

  /** A duplicate-free sequence is its own `distinct()`. */
  lemma {:induction false} DistinctOfNoDup<T>(s: seq<T>)
    requires NoDup(s)
    ensures Distinct(s) == s
    decreases |s|
  {
    if |s| > 0 {
      var init := s[..|s| - 1];
      assert NoDup(init);
      DistinctOfNoDup(init);
      assert s[|s| - 1] !in init;
      assert s == init + [s[|s| - 1]];
    }
  }

  /** Appending only elements already seen does not change `distinct()`. */
  lemma {:induction false} DistinctAbsorbs<T>(a: seq<T>, b: seq<T>)
    requires forall x :: x in b ==> x in a
    ensures Distinct(a + b) == Distinct(a)
    decreases |b|
  {
    if |b| == 0 {
      assert a + b == a;
    } else {
      var b' := b[..|b| - 1];
      var x := b[|b| - 1];
      assert (a + b)[..|a + b| - 1] == a + b';
      assert (a + b)[|a + b| - 1] == x;
      DistinctAbsorbs(a, b');
      assert x in a;
      var k :| 0 <= k < |a| && a[k] == x;
      assert (a + b')[k] == x;
    }
  }

  /** `distinct()` of a sequence followed by itself is its `distinct()`. */
  lemma DistinctOfDoubled<T>(a: seq<T>)
    ensures Distinct(a + a) == Distinct(a)
  {
    DistinctAbsorbs(a, a);
  }

  /** Occurrence counts: a duplicate-free sequence holds every element at most once. */
  lemma {:induction false} NoDupMultiplicity<T>(s: seq<T>)
    ensures NoDup(s) <==> forall x :: multiset(s)[x] <= 1
    decreases |s|
  {
    if |s| > 0 {
      var init := s[..|s| - 1];
      var x := s[|s| - 1];
      assert s == init + [x];
      NoDupMultiplicity(init);
      if NoDup(s) {
        assert NoDup(init);
        assert x !in init;
        assert multiset(init)[x] == 0;
      } else {
        var i, j :| 0 <= i < j < |s| && s[i] == s[j];
        if j < |s| - 1 {
          assert init[i] == init[j];
          assert !NoDup(init);
          var y :| multiset(init)[y] > 1;
          assert multiset(s)[y] > 1;
        } else {
          assert s[i] in init;
          assert multiset(s)[x] == multiset(init)[x] + 1 >= 2;
        }
      }
    }
  }

  /** A permutation of a duplicate-free sequence is duplicate-free. */
  lemma NoDupPermutation<T>(a: seq<T>, b: seq<T>)
    requires multiset(a) == multiset(b)
    requires NoDup(a)
    ensures NoDup(b)
  {
    NoDupMultiplicity(a);
    NoDupMultiplicity(b);
  }

  /** `filter(keep).map(f)` on an ordered stream: `f` of each kept element,
      in encounter order. */
  function FilterMap<T, U>(keep: T -> bool, f: T -> U, s: seq<T>): (r: seq<U>)
    ensures |r| <= |s|
  {
    if |s| == 0 then []
    else (if keep(s[0]) then [f(s[0])] else []) + FilterMap(keep, f, s[1..])
  }

  /** A single element is mapped when kept and dropped otherwise. */
  lemma {:induction false} FilterMapOne<T, U>(keep: T -> bool, f: T -> U, x: T)
    ensures FilterMap(keep, f, [x]) == if keep(x) then [f(x)] else []
  {
    assert [x][1..] == [];
  }

  /** The stream of a concatenation is the concatenation of the streams. */
  lemma {:induction false} FilterMapAppend<T, U>(keep: T -> bool, f: T -> U, a: seq<T>, b: seq<T>)
    ensures FilterMap(keep, f, a + b) == FilterMap(keep, f, a) + FilterMap(keep, f, b)
  {
    if |a| == 0 {
      assert a + b == b;
    } else {
      var head := if keep(a[0]) then [f(a[0])] else [];
      var ab := a + b;
      assert ab[0] == a[0];
      assert ab[1..] == a[1..] + b;
      assert FilterMap(keep, f, ab) == head + FilterMap(keep, f, a[1..] + b);
      FilterMapAppend(keep, f, a[1..], b);
      assert FilterMap(keep, f, a) == head + FilterMap(keep, f, a[1..]);
    }
  }

  /** An output is `f` of some kept element, and every kept element's image
      is an output. */
  lemma {:induction false} FilterMapMembers<T, U>(keep: T -> bool, f: T -> U, s: seq<T>, y: U)
    ensures y in FilterMap(keep, f, s) <==> exists k :: 0 <= k < |s| && keep(s[k]) && y == f(s[k])
  {
    if |s| > 0 {
      var tail := s[1..];
      FilterMapMembers(keep, f, tail, y);
      var head := if keep(s[0]) then [f(s[0])] else [];
      assert FilterMap(keep, f, s) == head + FilterMap(keep, f, tail);
      if y in head {
        assert keep(s[0]) && y == f(s[0]);
      } else if y in FilterMap(keep, f, tail) {
        var k :| 0 <= k < |tail| && keep(tail[k]) && y == f(tail[k]);
        assert s[k + 1] == tail[k];
      }
      if exists k :: 0 <= k < |s| && keep(s[k]) && y == f(s[k]) {
        var k :| 0 <= k < |s| && keep(s[k]) && y == f(s[k]);
        if k > 0 {
          assert tail[k - 1] == s[k];
        }
      }
    }
  }

  /** A property every kept element's image has holds of every output. */
  lemma {:induction false} FilterMapAll<T, U>(keep: T -> bool, f: T -> U, s: seq<T>, p: U -> bool)
    requires forall k :: 0 <= k < |s| && keep(s[k]) ==> p(f(s[k]))
    ensures forall k :: 0 <= k < |FilterMap(keep, f, s)| ==> p(FilterMap(keep, f, s)[k])
  {
    if |s| > 0 {
      var tail := s[1..];
      assert forall k :: 0 <= k < |tail| ==> tail[k] == s[k + 1];
      FilterMapAll(keep, f, tail, p);
      var head := if keep(s[0]) then [f(s[0])] else [];
      var r := FilterMap(keep, f, s);
      assert r == head + FilterMap(keep, f, tail);
      forall k | 0 <= k < |r|
        ensures p(r[k])
      {
        if k >= |head| {
          assert r[k] == FilterMap(keep, f, tail)[k - |head|];
        }
      }
    }
  }
}

=== FILE: sorting.dfy ===
/** A stable insertion sort over a caller-supplied "comes no later than"
    relation. It stands in for Java's `Stream.sorted(...)`, which is stable on
    ordered streams: elements the relation ranks equally keep their encounter order. */
module Sorting {
  import Seqs

  /** `le` is total and transitive, as a `Comparator` must be. */
  ghost predicate TotalPreorder<T(!new)>(le: (T, T) -> bool)
  {
    && (forall x, y :: le(x, y) || le(y, x))
    && (forall x, y, z :: le(x, y) && le(y, z) ==> le(x, z))
  }

  /** Every earlier element comes no later than every later one. */
  ghost predicate SortedBy<T>(s: seq<T>, le: (T, T) -> bool)
  {
    forall i, j :: 0 <= i < j < |s| ==> le(s[i], s[j])
  }

  /** Inserts `x` in front of the first element it may precede, so `x` ends up
      before every element it ties with. */
  function Insert<T(!new)>(x: T, s: seq<T>, le: (T, T) -> bool): (r: seq<T>)
    requires TotalPreorder(le)
    requires SortedBy(s, le)
    ensures SortedBy(r, le)
    ensures multiset(r) == multiset(s) + multiset{x}
    ensures |r| == |s| + 1
    decreases |s|
  {
    if |s| == 0 || le(x, s[0]) then
      [x] + s
    else
      assert le(s[0], x);
      var rest := Insert(x, s[1..], le);
      assert s == [s[0]] + s[1..];
      assert forall k :: 0 <= k < |rest| ==> le(s[0], rest[k]) by {
        forall k | 0 <= k < |rest|
          ensures le(s[0], rest[k])
        {
          assert rest[k] in multiset(rest);
          if rest[k] != x {
            assert rest[k] in multiset(s[1..]);
            var j :| 0 <= j < |s[1..]| && s[1..][j] == rest[k];
            assert s[j + 1] == rest[k];
          }
        }
      }
      [s[0]] + rest
  }

  /** Insertion sort: each element is inserted, in front of its ties, into the
      sorted rest of the sequence. */
  function Sort<T(!new)>(s: seq<T>, le: (T, T) -> bool): (r: seq<T>)
    requires TotalPreorder(le)
    ensures SortedBy(r, le)
    ensures multiset(r) == multiset(s)
    ensures |r| == |s|
    decreases |s|
  {
    if |s| == 0 then []
    else
      assert s == [s[0]] + s[1..];
      Insert(s[0], Sort(s[1..], le), le)
  }

  /** The tail of a sorted sequence is sorted. */
  lemma SortedTail<T>(s: seq<T>, le: (T, T) -> bool)
    requires |s| > 0 && SortedBy(s, le)
    ensures SortedBy(s[1..], le)
  {
    forall i, j | 0 <= i < j < |s| - 1
      ensures le(s[1..][i], s[1..][j])
    {
      assert s[1..][i] == s[i + 1] && s[1..][j] == s[j + 1];
    }
  }

  /** An element that may precede the head of a sorted sequence goes in front. */
  lemma InsertAtFront<T(!new)>(x: T, s: seq<T>, le: (T, T) -> bool)
    requires TotalPreorder(le) && SortedBy(s, le)
    requires |s| == 0 || le(x, s[0])
    ensures Insert(x, s, le) == [x] + s
  {
  }

  /** A sorted sequence whose tail sorts to itself sorts to itself. */
  lemma SortStep<T(!new)>(s: seq<T>, le: (T, T) -> bool)
    requires TotalPreorder(le) && SortedBy(s, le)
    requires |s| > 0 && SortedBy(s[1..], le) && Sort(s[1..], le) == s[1..]
    ensures Sort(s, le) == s
  {
    var rest := s[1..];
    assert |rest| == 0 || le(s[0], rest[0]) by {
      if |rest| > 0 {
        assert rest[0] == s[1];
      }
    }
    InsertAtFront(s[0], rest, le);
    assert [s[0]] + rest == s;
  }

  /** Sorting what is already in order changes nothing. */
  lemma {:induction false} SortOfSorted<T(!new)>(s: seq<T>, le: (T, T) -> bool)
    requires TotalPreorder(le)
    requires SortedBy(s, le)
    ensures Sort(s, le) == s
    decreases |s|
  {
    if |s| > 0 {
      SortedTail(s, le);
      SortOfSorted(s[1..], le);
      SortStep(s, le);
    }
  }

  /** `distinct().sorted()`: each element once, in order. */
  function SortDistinct<T(!new, ==)>(s: seq<T>, le: (T, T) -> bool): seq<T>
    requires TotalPreorder(le)
  {
    Sort(Seqs.Distinct(s), le)
  }

  /** `distinct().sorted()` holds exactly the elements of its input, each
      once, in order. */
  lemma SortDistinctMeaning<T(!new)>(s: seq<T>, le: (T, T) -> bool)
    requires TotalPreorder(le)
    ensures forall i, j :: 0 <= i < j < |SortDistinct(s, le)| ==>
      le(SortDistinct(s, le)[i], SortDistinct(s, le)[j]) && SortDistinct(s, le)[i] != SortDistinct(s, le)[j]
    ensures forall i :: 0 <= i < |s| ==> s[i] in SortDistinct(s, le)
    ensures forall i :: 0 <= i < |SortDistinct(s, le)| ==> SortDistinct(s, le)[i] in s
  {
    var d := Seqs.Distinct(s);
    var r := SortDistinct(s, le);
    Seqs.NoDupPermutation(d, r);
    Seqs.SubseqMembers(d, s);
    forall i | 0 <= i < |s|
      ensures s[i] in r
    {
      assert s[i] in multiset(d);
    }
    forall i | 0 <= i < |r|
      ensures r[i] in s
    {
      assert r[i] in multiset(r);
      assert r[i] in d;
    }
  }
}

=== FILE: word_list.dfy ===
/** `Word.words(Stream<String>)`: turns lines of text into the sorted,
    duplicate-free dictionary of five-letter words. Modelled for ASCII text,
    where `\s`, `isBlank`, `trim` and `toUpperCase` have simple exact meanings. */
module WordList {
  import opened Wrappers
  import opened Words
  import Seqs
  import Sorting

  /** Membership in the regular-expression class `\s`. */
  predicate IsRegexSpace(ch: char)
  {
    ch == ' ' || ch == '\t' || ch == '\n' || ch == '\U{000B}' || ch == '\U{000C}' || ch == '\r'
  }

  /** `Character.isWhitespace` on ASCII: `\s` plus the four separator controls. */
  predicate IsJavaWhitespace(ch: char)
  {
    IsRegexSpace(ch) || '\U{001C}' <= ch <= '\U{001F}'
  }

  /** No character of `t` is in `\s`. */
  predicate SpaceFree(t: string)
  {
    forall i :: 0 <= i < |t| ==> !IsRegexSpace(t[i])
  }

  /** No character of `t` is a lower-case ASCII letter. */
  predicate LowerFree(t: string)
  {
    forall i :: 0 <= i < |t| ==> !IsLower(t[i])
  }

  predicate IsAsciiText(lines: seq<string>)
  {
    forall i, j :: 0 <= i < |lines| && 0 <= j < |lines[i]| ==> lines[i][j] < '\U{0080}'
  }

  /** Length of the run of non-`\s` characters that starts `s`. */
  function RunLength(s: string): (n: nat)
    ensures n <= |s|
    ensures forall i :: 0 <= i < n ==> !IsRegexSpace(s[i])
    ensures n == |s| || IsRegexSpace(s[n])
  {
    if |s| == 0 || IsRegexSpace(s[0]) then 0 else 1 + RunLength(s[1..])
  }

  /** The characters of `s` that are not in `\s`. */
  function NonSpace(s: string): string
  {
    if |s| == 0 then [] else (if IsRegexSpace(s[0]) then [] else [s[0]]) + NonSpace(s[1..])
  }

  function Concat(ts: seq<string>): string
  {
    if |ts| == 0 then [] else ts[0] + Concat(ts[1..])
  }

  /** `line.split("\\s+")` with the empty pieces removed (the empty leading piece
      it produces for a line starting with `\s` is dropped by the blank filter
      that follows anyway): the maximal runs of non-`\s` characters, in order. */
  function Split(line: string): (r: seq<string>)
    ensures forall k :: 0 <= k < |r| ==> |r[k]| > 0 && SpaceFree(r[k])
    decreases |line|
  {
    if |line| == 0 then []
    else if IsRegexSpace(line[0]) then Split(line[1..])
    else
      var n := RunLength(line);
      [line[..n]] + Split(line[n..])
  }

  /** Splitting loses exactly the `\s` characters: the tokens, joined, are the
      line with its whitespace removed. */
  lemma {:induction false} SplitKeepsLetters(line: string)
    ensures Concat(Split(line)) == NonSpace(line)
    decreases |line|
  {
    if |line| == 0 {
    } else if IsRegexSpace(line[0]) {
      SplitKeepsLetters(line[1..]);
    } else {
      var n := RunLength(line);
      SplitKeepsLetters(line[n..]);
      NonSpaceOfRun(line, n);
      var r := Split(line);
      assert r == [line[..n]] + Split(line[n..]);
      assert r[1..] == Split(line[n..]);
    }
  }

  lemma {:induction false} NonSpaceOfRun(s: string, n: nat)
    requires n <= |s|
    requires forall i :: 0 <= i < n ==> !IsRegexSpace(s[i])
    ensures NonSpace(s) == s[..n] + NonSpace(s[n..])
    decreases n
  {
    if n > 0 {
      var tail := s[1..];
      forall i | 0 <= i < n - 1
        ensures !IsRegexSpace(tail[i])
      {
        assert tail[i] == s[i + 1];
      }
      NonSpaceOfRun(tail, n - 1);
      assert NonSpace(s) == [s[0]] + NonSpace(tail);
      assert tail[n - 1..] == s[n..];
      assert s[..n] == [s[0]] + tail[..n - 1];
      assert [s[0]] + (tail[..n - 1] + NonSpace(s[n..])) == s[..n] + NonSpace(s[n..]);
    }
  }

  /** A non-empty string free of `\s` is a single piece. */
  lemma {:induction false} SplitOfPiece(t: string)
    requires |t| > 0 && SpaceFree(t)
    ensures Split(t) == [t]
  {
    assert RunLength(t) == |t|;
    assert t[..|t|] == t && t[|t|..] == [];
  }

  /** A `\s` character cuts the line: the pieces are those of the text before
      it followed by those of the text after it. With `SplitOfPiece` and
      `Split("") == []` this fixes every piece `split` produces. */
  lemma {:induction false} SplitAtSpace(a: string, ch: char, b: string)
    requires IsRegexSpace(ch)
    ensures Split(a + [ch] + b) == Split(a) + Split(b)
    decreases |a|
  {
    var c := [ch] + b;
    var line := a + [ch] + b;
    assert line == a + c;
    if |a| == 0 {
      assert line[1..] == b;
    } else if IsRegexSpace(a[0]) {
      assert line[0] == a[0];
      assert line[1..] == a[1..] + [ch] + b;
      SplitAtSpace(a[1..], ch, b);
    } else {
      var n := RunLength(a);
      RunLengthBeforeSpace(a, c);
      SlicesOfAppend(a, c, n);
      assert line[0] == a[0];
      assert Split(line) == [a[..n]] + Split(a[n..] + c);
      assert a[n..] + c == a[n..] + [ch] + b;
      SplitAtSpace(a[n..], ch, b);
    }
  }

  /** The first run of `a` ends where `a` does when a `\s` character follows. */
  lemma {:induction false} RunLengthBeforeSpace(a: string, c: string)
    requires |c| > 0 && IsRegexSpace(c[0])
    ensures RunLength(a + c) == RunLength(a)
  {
    var n := RunLength(a);
    var line := a + c;
    forall i | 0 <= i < n
      ensures !IsRegexSpace(line[i])
    {
      assert line[i] == a[i];
    }
    assert IsRegexSpace(line[n]) by {
      if n < |a| {
        assert line[n] == a[n];
      } else {
        assert line[n] == c[0];
      }
    }
    RunLengthIs(line, n);
  }

  /** `RunLength` is the index of the first `\s` character, or the length. */
  lemma {:induction false} RunLengthIs(s: string, n: nat)
    requires n <= |s|
    requires forall i :: 0 <= i < n ==> !IsRegexSpace(s[i])
    requires n == |s| || IsRegexSpace(s[n])
    ensures RunLength(s) == n
  {
  }

  lemma SlicesOfAppend(a: string, c: string, n: nat)
    requires n <= |a|
    ensures (a + c)[..n] == a[..n]
    ensures (a + c)[n..] == a[n..] + c
  {
  }

  /** `String.isBlank`: empty or whitespace only. */
  predicate IsBlank(t: string)
  {
    forall i :: 0 <= i < |t| ==> IsJavaWhitespace(t[i])
  }

  function TrimStart(t: string): (r: string)
    ensures |r| <= |t| && r == t[|t| - |r|..]
    ensures |r| > 0 ==> r[0] > ' '
    ensures forall i :: 0 <= i < |t| - |r| ==> t[i] <= ' '
  {
    if |t| > 0 && t[0] <= ' ' then TrimStart(t[1..]) else t
  }

  function TrimEnd(t: string): (r: string)
    ensures |r| <= |t| && r == t[..|r|]
    ensures |r| > 0 ==> r[|r| - 1] > ' '
    ensures forall i :: |r| <= i < |t| ==> t[i] <= ' '
  {
    if |t| > 0 && t[|t| - 1] <= ' ' then TrimEnd(t[..|t| - 1]) else t
  }

  /** `r` is what is left of `t` once `k` leading characters and every
      character after `r` are dropped, all of them at most `' '`. */
  predicate TrimmedAt(t: string, r: string, k: int)
  {
    && 0 <= k <= |t| - |r|
    && r == t[k..k + |r|]
    && (forall i :: 0 <= i < k ==> t[i] <= ' ')
    && (forall i :: k + |r| <= i < |t| ==> t[i] <= ' ')
  }

  /** `String.trim`: drops the characters up to `' '` at both ends. */
  function Trim(t: string): (r: string)
    ensures |r| <= |t|
    ensures exists k :: TrimmedAt(t, r, k)
    ensures |r| > 0 ==> r[0] > ' ' && r[|r| - 1] > ' '
    ensures SpaceFree(t) ==> SpaceFree(r)
  {
    var s := TrimStart(t);
    var r := TrimEnd(s);
    PrefixOfSuffix(t, s, r);
    r
  }

  /** A prefix `r` of a suffix `s` of `t`, where everything cut off is at most
      `' '`, is `t` trimmed at the length of the cut-off head. */
  lemma {:induction false} PrefixOfSuffix(t: string, s: string, r: string)
    requires |s| <= |t| && s == t[|t| - |s|..]
    requires forall i :: 0 <= i < |t| - |s| ==> t[i] <= ' '
    requires |r| <= |s| && r == s[..|r|]
    requires forall i :: |r| <= i < |s| ==> s[i] <= ' '
    ensures TrimmedAt(t, r, |t| - |s|)
    ensures |r| > 0 ==> r[0] == s[0]
    ensures SpaceFree(t) ==> SpaceFree(r)
  {
    var k := |t| - |s|;
    forall i | k + |r| <= i < |t|
      ensures t[i] <= ' '
    {
      assert t[i] == s[i - k];
    }
    if SpaceFree(t) {
      forall i | 0 <= i < |r|
        ensures !IsRegexSpace(r[i])
      {
        assert r[i] == t[k + i];
      }
    }
  }

  predicate IsLower(ch: char)
  {
    'a' <= ch <= 'z'
  }

  /** `String.toUpperCase` on ASCII text. */
  function ToUpper(t: string): (r: string)
    ensures |r| == |t|
    ensures forall i :: 0 <= i < |t| ==> !IsLower(r[i])
    ensures forall i :: 0 <= i < |t| && !IsLower(t[i]) ==> r[i] == t[i]
    ensures forall i :: 0 <= i < |t| && IsLower(t[i]) ==> r[i] as int == t[i] as int - 32
    ensures LowerFree(r)
    ensures SpaceFree(t) ==> SpaceFree(r)
  {
    seq(|t|, i requires 0 <= i < |t| => if IsLower(t[i]) then (t[i] as int - 32) as char else t[i])
  }

  /** `flatMap(Arrays::stream)` over the split lines. */
  function Tokens(lines: seq<string>): (r: seq<string>)
    ensures forall k :: 0 <= k < |r| ==> SpaceFree(r[k])
  {
    if |lines| == 0 then [] else Split(lines[0]) + Tokens(lines[1..])
  }

  /** The lines as one text, each followed by a line break. */
  function Text(lines: seq<string>): string
  {
    if |lines| == 0 then [] else lines[0] + ['\n'] + Text(lines[1..])
  }

  /** Splitting line by line and flattening gives the pieces of the whole
      text: no token spans two lines and none is lost. */
  lemma {:induction false} TokensSplitText(lines: seq<string>)
    ensures Tokens(lines) == Split(Text(lines))
  {
    if |lines| > 0 {
      TokensSplitText(lines[1..]);
      SplitAtSpace(lines[0], '\n', Text(lines[1..]));
    }
  }

  /** The tokens, joined, are the text with its `\s` characters removed. */
  lemma {:induction false} TokensKeepLetters(lines: seq<string>)
    ensures Concat(Tokens(lines)) == NonSpace(Text(lines))
  {
    TokensSplitText(lines);
    SplitKeepsLetters(Text(lines));
  }

  /** `s -> !s.isBlank()`. */
  predicate Kept(t: string)
  {
    !IsBlank(t)
  }

  /** `String::trim` followed by `String::toUpperCase`. */
  function Cleaned(t: string): string
  {
    ToUpper(Trim(t))
  }

  /** `filter(s -> !s.isBlank()).map(String::trim).map(String::toUpperCase)`. */
  function Normalize(tokens: seq<string>): (r: seq<string>)
    ensures |r| <= |tokens|
  {
    Seqs.FilterMap(Kept, Cleaned, tokens)
  }

  /** The stages work token by token: a blank token disappears, any other
      becomes its trimmed upper-case form. */
  lemma NormalizeOne(t: string)
    ensures Normalize([t]) == if IsBlank(t) then [] else [ToUpper(Trim(t))]
  {
    Seqs.FilterMapOne(Kept, Cleaned, t);
  }

  /** Normalizing a concatenation normalizes each part, in order. With
      `NormalizeOne` this fixes the whole output. */
  lemma NormalizeAppend(a: seq<string>, b: seq<string>)
    ensures Normalize(a + b) == Normalize(a) + Normalize(b)
  {
    Seqs.FilterMapAppend(Kept, Cleaned, a, b);
  }

  /** A string is a normalized token exactly when it is the trimmed
      upper-case form of some non-blank token. */
  lemma NormalizeMembers(tokens: seq<string>, u: string)
    ensures u in Normalize(tokens) <==>
      exists k :: 0 <= k < |tokens| && Kept(tokens[k]) && u == Cleaned(tokens[k])
  {
    Seqs.FilterMapMembers(Kept, Cleaned, tokens, u);
  }

  /** Every string is free of lower-case letters. */
  predicate AllLowerFree(ts: seq<string>)
  {
    forall k :: 0 <= k < |ts| ==> LowerFree(ts[k])
  }

  /** Every string is free of `\s`. */
  predicate AllSpaceFree(ts: seq<string>)
  {
    forall k :: 0 <= k < |ts| ==> SpaceFree(ts[k])
  }

  /** Normalized tokens carry no lower-case letter, and stay free of `\s` when
      the tokens were. */
  lemma NormalizeClean(tokens: seq<string>)
    ensures AllLowerFree(Normalize(tokens))
    ensures AllSpaceFree(tokens) ==> AllSpaceFree(Normalize(tokens))
  {
    Seqs.FilterMapAll(Kept, Cleaned, tokens, (u: string) => LowerFree(u));
    if AllSpaceFree(tokens) {
      Seqs.FilterMapAll(Kept, Cleaned, tokens, (u: string) => SpaceFree(u));
    }
  }

  /** The normalized tokens of `lines`, before duplicates are dropped. */
  function NormalizedTokens(lines: seq<string>): seq<string>
  {
    Normalize(Tokens(lines))
  }

  /** Every string has exactly `SIZE` letters. */
  predicate AllFit(ts: seq<string>)
  {
    forall k :: 0 <= k < |ts| ==> |ts[k]| == SIZE
  }

  /** Index of the first string whose length is not `SIZE`, or `|ts|`. */
  function FirstMisfit(ts: seq<string>): (i: nat)
    ensures i <= |ts|
    ensures forall k :: 0 <= k < i ==> |ts[k]| == SIZE
    ensures i < |ts| ==> |ts[i]| != SIZE
  {
    if |ts| == 0 then 0
    else if |ts[0]| != SIZE then 0
    else 1 + FirstMisfit(ts[1..])
  }

  /** `Word::compareTo` as a "comes no later than" relation. */
  function NoLater(): (Word, Word) -> bool
  {
    (a: Word, b: Word) => Compare(a, b) <= 0
  }

  lemma NoLaterIsTotalPreorder()
    ensures Sorting.TotalPreorder(NoLater())
  {
    forall a: Word, b: Word
      ensures NoLater()(a, b) || NoLater()(b, a)
    {
      CompareAntisymmetric(a, b);
    }
    forall a: Word, b: Word, c: Word | NoLater()(a, b) && NoLater()(b, c)
      ensures NoLater()(a, c)
    {
      CompareTransitive(a, b, c);
    }
  }

  /** `sorted()` on duplicate-free words: strictly ascending, same words. */
  function SortWords(ws: seq<Word>): (r: seq<Word>)
    requires Seqs.NoDup(ws)
    ensures forall w :: w in r <==> w in ws
    ensures forall i, j :: 0 <= i < j < |r| ==> Compare(r[i], r[j]) < 0
  {
    NoLaterIsTotalPreorder();
    var sorted := Sorting.Sort(ws, NoLater());
    Seqs.NoDupPermutation(ws, sorted);
    assert forall w :: w in sorted <==> w in ws by {
      forall w
        ensures w in sorted <==> w in ws
      {
        assert w in sorted <==> w in multiset(sorted);
        assert w in ws <==> w in multiset(ws);
      }
    }
    assert forall i, j :: 0 <= i < j < |sorted| ==> Compare(sorted[i], sorted[j]) < 0 by {
      forall i, j | 0 <= i < j < |sorted|
        ensures Compare(sorted[i], sorted[j]) < 0
      {
        assert NoLater()(sorted[i], sorted[j]);
        CompareZeroIffEqual(sorted[i], sorted[j]);
      }
    }
    sorted
  }

  /** `words(lines)`: the distinct normalized tokens, each validated as a
      `Word` (the first misfit raises), sorted ascending by `compareTo`. */
  function Parse(lines: seq<string>): (r: Result<seq<Word>, WordError>)
    requires IsAsciiText(lines)
    ensures r.Err? <==> !AllFit(NormalizedTokens(lines))
    ensures r.Err? ==> r.error.letters in NormalizedTokens(lines) && |r.error.letters| != SIZE
    ensures r.Ok? ==> forall w :: w in r.value <==> w in NormalizedTokens(lines)
    ensures r.Ok? ==> forall i, j :: 0 <= i < j < |r.value| ==> Compare(r.value[i], r.value[j]) < 0
    ensures r.Ok? ==> forall k :: 0 <= k < |r.value| ==> LowerFree(r.value[k]) && SpaceFree(r.value[k])
  {
    var ts := NormalizedTokens(lines);
    NormalizeClean(Tokens(lines));
    assert forall k :: 0 <= k < |ts| ==> LowerFree(ts[k]) && SpaceFree(ts[k]);
    var d := Seqs.Distinct(ts);
    var bad := FirstMisfit(d);
    Seqs.SubseqMembers(d, ts);
    if bad < |d| then
      assert |d[bad]| != SIZE && d[bad] in ts;
      Err(NotFiveLetters(d[bad]))
    else
      assert AllFit(ts) by {
        forall k | 0 <= k < |ts|
          ensures |ts[k]| == SIZE
        {
          assert ts[k] in d;
        }
      }
      var words: seq<Word> := d;
      var sorted := SortWords(words);
      assert forall k :: 0 <= k < |sorted| ==> LowerFree(sorted[k]) && SpaceFree(sorted[k]) by {
        forall k | 0 <= k < |sorted|
          ensures LowerFree(sorted[k]) && SpaceFree(sorted[k])
        {
          assert sorted[k] in ts;
        }
      }
      Ok(sorted)
  }
}

=== FILE: words.dfy ===
/** The current revision's `Word`: a validated five-letter string value with
    letter lookups and the `String` ordering. */
module Words {
  import opened Wrappers
  import Letters

  /** `Word.SIZE`. */
  const SIZE: nat := 5

  /** A `Word` record always holds exactly `SIZE` letters: its compact
      constructor rejects every other length. */
  type Word = s: seq<char> | |s| == SIZE witness "SLATE"

  /** The `IllegalArgumentException` raised for a string of the wrong length. */
  datatype WordError = NotFiveLetters(letters: string)

  /** `new Word(letters)`. */
  function MakeWord(letters: string): (r: Result<Word, WordError>)
    ensures r.Ok? <==> |letters| == SIZE
    ensures r.Ok? ==> r.value == letters
    ensures r.Err? ==> r.error == NotFiveLetters(letters)
  {
    if |letters| != SIZE then Err(NotFiveLetters(letters)) else Ok(letters)
  }

  /** `contains(c)`, via `letters.indexOf(c) >= 0`. */
  function Contains(w: Word, c: char): (r: bool)
    ensures r <==> exists i :: 0 <= i < SIZE && w[i] == c
  {
    Letters.IndexOf(w, c) >= 0
  }

  /** The `allMatch(excluded::contains)` over indices `from..SIZE-1` holding `c`. */
  function AllOccurrencesIn(w: Word, c: char, excluded: seq<int>, from: nat): (r: bool)
    requires from <= SIZE
    ensures r <==> forall i :: from <= i < SIZE && w[i] == c ==> i in excluded
    decreases SIZE - from
  {
    if from == SIZE then true
    else (w[from] != c || from in excluded) && AllOccurrencesIn(w, c, excluded, from + 1)
  }

  /** `containsAll(c, excluded)`: every index holding `c` is listed in
      `excluded`; vacuously true when `c` does not occur. */
  function ContainsAll(w: Word, c: char, excluded: seq<int>): (r: bool)
    ensures r <==> forall i :: 0 <= i < SIZE && w[i] == c ==> i in excluded
    ensures !Contains(w, c) ==> r
  {
    AllOccurrencesIn(w, c, excluded, 0)
  }

  /** `String.compareTo`: the difference of the first differing letters, or
      of the lengths when one string is a prefix of the other. */
  function Compare(a: string, b: string): int
  {
    if |a| == 0 || |b| == 0 then |a| - |b|
    else if a[0] != b[0] then a[0] as int - b[0] as int
    else Compare(a[1..], b[1..])
  }

  /** Lexicographic "strictly before", stated without reference to `Compare`. */
  ghost predicate LexLess(a: string, b: string)
  {
    || (exists k :: 0 <= k < |a| && k < |b| && a[..k] == b[..k] && a[k] < b[k])
    || (|a| < |b| && a == b[..|a|])
  }

  /** `compareTo` is negative exactly when `a` precedes `b` lexicographically. */
  lemma {:induction false} CompareIsLexicographic(a: string, b: string)
    ensures Compare(a, b) < 0 <==> LexLess(a, b)
    decreases |a|
  {
    forall k | 0 < k <= |a| && k <= |b| && a[..k] == b[..k]
      ensures a[0] == b[0]
    {
      assert a[..k][0] == a[0] && b[..k][0] == b[0];
    }
    if |a| == 0 || |b| == 0 {
      if |b| == 0 {
        assert !(|a| < |b|);
      } else {
        assert a == b[..|a|];
      }
    } else if a[0] != b[0] {
      if a[0] < b[0] {
        assert a[..0] == b[..0];
      }
    } else {
      var a', b' := a[1..], b[1..];
      CompareIsLexicographic(a', b');
      if LexLess(a', b') {
        if k :| 0 <= k < |a'| && k < |b'| && a'[..k] == b'[..k] && a'[k] < b'[k] {
          assert a[..k + 1] == [a[0]] + a'[..k];
          assert b[..k + 1] == [b[0]] + b'[..k];
          assert a[k + 1] < b[k + 1];
        } else {
          assert a == [a[0]] + a';
          assert b[..|a|] == [b[0]] + b'[..|a'|];
        }
      }
      if LexLess(a, b) {
        if k :| 0 <= k < |a| && k < |b| && a[..k] == b[..k] && a[k] < b[k] {
          assert k > 0;
          assert a'[..k - 1] == a[..k][1..];
          assert b'[..k - 1] == b[..k][1..];
          assert a'[k - 1] < b'[k - 1];
        } else {
          assert a' == a[1..] == b[..|a|][1..] == b'[..|a'|];
        }
      }
    }
  }

  /** `compareTo` is zero exactly on equal strings. */
  lemma {:induction false} CompareZeroIffEqual(a: string, b: string)
    ensures Compare(a, b) == 0 <==> a == b
    decreases |a|
  {
    if |a| > 0 && |b| > 0 && a[0] == b[0] {
      CompareZeroIffEqual(a[1..], b[1..]);
      assert a == [a[0]] + a[1..];
      assert b == [b[0]] + b[1..];
    }
  }

  /** Swapping the arguments negates `compareTo`. */
  lemma {:induction false} CompareAntisymmetric(a: string, b: string)
    ensures Compare(a, b) == -Compare(b, a)
    decreases |a|
  {
    if |a| > 0 && |b| > 0 && a[0] == b[0] {
      CompareAntisymmetric(a[1..], b[1..]);
    }
  }

  /** "`compareTo` is at most zero" is transitive. */
  lemma {:induction false} CompareTransitive(a: string, b: string, c: string)
    requires Compare(a, b) <= 0 && Compare(b, c) <= 0
    ensures Compare(a, c) <= 0
    decreases |a|
  {
    if |a| > 0 && |b| > 0 && |c| > 0 && a[0] == b[0] == c[0] {
      CompareTransitive(a[1..], b[1..], c[1..]);
    }
  }
}

=== FILE: wrappers.dfy ===
/** Failure-carrying return types standing in for the Java exceptions and
    `Optional` results of the solver. */
module Wrappers {

  /** `Optional<T>` / a nullable reference. */
  datatype Option<+T> = None | Some(value: T)

  /** A computation that either yields a value or raises an exception of kind `E`. */
  datatype Result<+T, +E> = Ok(value: T) | Err(error: E)

  /** `stream().map(f).toList()` where `f` may throw: `f` applied to each
      element in order, stopping at the first failure. */
  function MapResult<A, B, E>(f: A --> Result<B, E>, s: seq<A>): (r: Result<seq<B>, E>)
    requires forall i :: 0 <= i < |s| ==> f.requires(s[i])
    ensures r.Ok? ==> |r.value| == |s|
  {
    if |s| == 0 then Ok([])
    else
      match f(s[0])
      case Err(e) => Err(e)
      case Ok(first) =>
        match MapResult(f, s[1..])
        case Err(e) => Err(e)
        case Ok(rest) => Ok([first] + rest)
  }

  /** On success, entry `i` is `f` of element `i`. */
  lemma {:induction false} MapResultMeaning<A, B, E>(f: A --> Result<B, E>, s: seq<A>)
    requires forall i :: 0 <= i < |s| ==> f.requires(s[i])
    ensures MapResult(f, s).Ok? ==> forall i :: 0 <= i < |s| ==>
      f(s[i]).Ok? && MapResult(f, s).value[i] == f(s[i]).value
  {
    if |s| > 0 && MapResult(f, s).Ok? {
      MapResultMeaning(f, s[1..]);
      forall i | 0 < i < |s|
        ensures f(s[i]).Ok? && MapResult(f, s).value[i] == f(s[i]).value
      {
        assert s[1..][i - 1] == s[i];
      }
    }
  }

  /** When `f` succeeds on every element, so does the whole map. */
  lemma {:induction false} MapResultSucceeds<A, B, E>(f: A --> Result<B, E>, s: seq<A>)
    requires forall i :: 0 <= i < |s| ==> f.requires(s[i]) && f(s[i]).Ok?
    ensures MapResult(f, s).Ok?
  {
    if |s| > 0 {
      assert forall i :: 0 <= i < |s| - 1 ==> s[1..][i] == s[i + 1];
      MapResultSucceeds(f, s[1..]);
    }
  }
}
